=== FILE: README.md ===
# ow-waybar helpers, modelled in Dafny

ow-waybar is an OpenWeatherMap module for the Waybar status bar. A shell launcher
calls `ow-popup.py` with an API key and coordinates. `ow-popup.py` fetches the
current weather and the forecast, then prints a one-line label and a Pango-markup
tooltip. This project models the pure, deterministic logic of `ow-popup.py` and
of its helper module `tools.py`:

- the weather-code icon table and its fallback glyph (`get_icon`);
- wind-direction bucketing into eight compass points (`direction`);
- the filtered string join (`join`);
- property extraction and formatting from a weather record (`get_ow_property`);
- the settings `main` builds, the defaults `OpenWeather.__init__` fills in with `check_key`, and the cache file names it derives;
- the temporary-directory choice (`temp_dir`);
- the application-directory list built from the environment (`get_app_dirs`);
- duration formatting (`seconds2string`);
- the cache refresh rule, the 32-row forecast cap and the temperature cell of a forecast row.

The environment is a `map<string, string>`. A weather record is a datatype of
`Option` fields, one per JSON key the helpers read. The settings dictionary is a
map to a small scalar datatype. Python exceptions are `Result` errors.

Modules and files:

- `wrappers.dfy` (`Wrappers`): `Option`, `Result` and the Python exceptions.
- `pystr.dfy` (`PyStr`): the Python string built-ins used: `str()` of an integer, `str.split`, `str.join` and `str.capitalize`.
- `tools.py` is modelled by `tools.dfy` (`Tools`).
- The free functions of `ow-popup.py` are modelled by `ow_popup.dfy` (`OwPopup`).
- The `OpenWeather` class and `main` are modelled by `open_weather.dfy` (`OpenWeather`).

Two things depend on the platform and are parameters of the model
(`OwPopup.Formatters`):

- the local-time `strftime("%H:%M")` of a sunrise or sunset timestamp;
- Python's `str()` of a float.

Where the code and the documented behaviour differ, the model follows the code.
For example, `get_ow_property` returns "" for a missing field. But it raises
KeyError when the enclosing "sys" or "main" object is missing. For "weather" it
raises KeyError when the key is missing, and IndexError when the list is empty.
The shell launcher is not part of this model.

## Model

| member | source | states |
|---|---|---|
| PyStr.ParseNatToString | tools.py:198 | reading the decimal text of `str(n)` back gives `n` again |
| PyStr.NatToStringLength | tools.py:198-200 | `str(n)` has one digit exactly when n < 10, and three or more exactly when n >= 100 |
| PyStr.NatToStringInjective | tools.py:198 | `str(n)` never gives two different non-negative numbers the same text |
| PyStr.IntToString | tools.py:198 | `str(i)` is all digits exactly for non-negative i, and starts with '-' otherwise; the digits (after the '-') read back as the absolute value of i, with no leading zero; `str(0)` is exactly "0" |
| PyStr.Split | tools.py:59 | `str.split(c)` gives at least one piece, one more than the occurrences of c, and no piece contains c |
| PyStr.JoinSplit | tools.py:59 | joining the pieces of a split with the separator restores the original text |
| PyStr.SplitJoin | tools.py:59 | splitting a join of separator-free pieces gives the pieces back |
| PyStr.Capitalize | ow-popup.py:144 | `capitalize()` keeps the length, upper-cases the first letter and lower-cases every other one |
| PyStr.CapitalizeIdempotent | ow-popup.py:144 | capitalising a description twice is the same as capitalising it once |
| OwPopup.GetIcon | ow-popup.py:97-98 | a code in the table gets its glyph; any other code gets the sparkles fallback |
| OwPopup.IconsArePrivateUse | ow-popup.py:31-94 | every glyph of the icon table is a single private-use-area character |
| OwPopup.GetIconFallbackIff | ow-popup.py:31-98 | the fallback glyph appears exactly for codes missing from the table |
| OwPopup.Direction | ow-popup.py:101-119 | the result is one of the eight compass points or "WTF", and "WTF" only outside 0..360 or for a fractional bearing |
| OwPopup.DirectionNorth | ow-popup.py:102-103 | every whole degree in 0..23 and in 337..360 is "N" |
| OwPopup.DirectionWholeDegrees | ow-popup.py:101-119 | a whole degree gets "WTF" exactly when it is below 0 or above 360 |
| OwPopup.DirectionSectors | ow-popup.py:104-117 | from 24 to 336 the label is the 45-degree sector counted from 24 (NE, E, SE, S, SW, W, NW) |
| OwPopup.DirectionOverlap | ow-popup.py:114-117 | 293 lies in both the W and the NW bucket and is "W", because the W branch comes first |
| OwPopup.DirectionFractionalGap | ow-popup.py:102-119 | every bearing strictly inside one of the seven gaps between whole-degree buckets (23..24, 68..69, 113..114, 158..159, 203..204, 248..249, 336..337) is "WTF" |
| OwPopup.DirectionWtfIff | ow-popup.py:101-119 | "WTF" comes out exactly for a bearing below 0, above 360, or inside one of those gaps |
| OwPopup.NonEmpty | ow-popup.py:123 | the filter keeps exactly the non-empty arguments, each as many times as it occurs, and drops every empty one |
| OwPopup.NonEmptyConcat | ow-popup.py:123 | filtering a concatenation is the concatenation of the filtered runs, so the kept arguments keep their relative order |
| OwPopup.Join | ow-popup.py:122-123 | `join` of arguments that are all empty is "", and with exactly one non-empty argument it is that argument, whatever the separator |
| OwPopup.JoinOne | ow-popup.py:122-123 | a single argument is its own join for any separator, so `join` adds nothing to a lone value |
| OwPopup.JoinCons | ow-popup.py:122-123 | for any separator, `join` is determined one argument at a time: an empty argument adds nothing, and a non-empty one is followed by `sep` only when a non-empty argument comes after it |
| OwPopup.JoinConcat | ow-popup.py:122-123 | joining two runs of arguments puts `sep` between their joins only when both are non-empty, so empty arguments never leave a stray separator |
| OwPopup.JoinSplitsBack | ow-popup.py:122-123 | when the separator is a single character that no argument contains, and at least one argument is non-empty, splitting the join on it gives exactly the non-empty arguments in their original order |
| OwPopup.Trunc | ow-popup.py:171 | `int(x)` truncates toward zero |
| OwPopup.Kilometres | ow-popup.py:171 | `int(v / 1000)`: for a non-negative distance the largest whole number of kilometres not above it, for a negative one the smallest not below it |
| OwPopup.KilometresOfMetres | ow-popup.py:169-171 | the visibility in km is metres div 1000 for non-negative metres, and is truncated toward zero for negative ones |
| OwPopup.GetOwProperty | ow-popup.py:126-172 | an unknown name gives ""; a missing "sys", "weather" or "main" raises KeyError for the names read from it and an empty weather list raises IndexError for "icon" and "desc", and errors arise from nothing else; a raw number is returned only for a non-zero "temp" or "feels_like" |
| OwPopup.OwPropertyMissingField | ow-popup.py:126-172 | a missing field under an existing object (temp, feels_like, humidity, pressure; country, sunrise, sunset; icon, desc), or a missing "wind", "clouds" or "visibility", gives "" |
| OwPopup.OwPropertyZeroIsEmpty | ow-popup.py:145-156 | a zero temp, feels_like, humidity or pressure gives "" |
| OwPopup.OwPropertyFormats | ow-popup.py:145-168 | the units: humidity "v%", pressure "v hPa", wind speed and gust "v m/s", cloudiness "v%", wind_dir the compass label, temp the raw number |
| OwPopup.OwPropertyPresentText | ow-popup.py:128-171 | the text of a property whose field is present: icon is the glyph for the condition id, desc the capitalised description, country the value itself, sunrise and sunset (when non-zero) the sunrise or sunset emoji, a space and the `%H:%M` time, visibility the kilometres as decimal digits then " km" |
| OwPopup.OwVisibilityReadsBack | ow-popup.py:169-171 | for whole metres the visibility text is digits then " km", the digits read back as metres div 1000, and they carry no leading zero unless the text is "0 km" |
| OwPopup.OwHumidityReadsBack | ow-popup.py:151-153 | a non-zero whole humidity is digits then "%", and the digits read back as the humidity |
| OpenWeather.ApplyDefaults | ow-popup.py:181-203 | after the defaults loop every default key is present, every caller key keeps its value, missing keys hold their defaults, and the result is the defaults overridden by the caller's settings |
| OpenWeather.MainSettings | ow-popup.py:534-562 | the settings `main` builds hold "interval" 1800 and the misspelt switch "show-visibilty" carrying the "show_visibilty" flag, and hold neither "show-visibility" nor "module-id" |
| OpenWeather.MainSettingsFixed | ow-popup.py:534-562 | with the key spelt as the class reads it, `main` sets exactly the class defaults other than "module-id" |
| OpenWeather.VisibilitySwitchAlwaysOff | ow-popup.py:549-561 | as written, the settings from `main` never carry "show-visibility", so after defaults filling the switch for the visibility item of the forecast rows (line 490) is off for every command line |
| OpenWeather.VisibilityFollowsFlag | ow-popup.py:549-561 | with the key spelt "visibility" in `main`, the switch after defaults filling equals the parsed flag "show_visibility"; that flag exists only once the option `--show-visibilty` (lines 594-604) is renamed too |
| OpenWeather.VisibilityNeedsBothRenames | ow-popup.py:594-604 | renaming the key in `main` alone is not enough: the option as written parses to "show_visibilty", and the visibility switch stays off |
| OpenWeather.CacheFile | ow-popup.py:211-217 | a cache file name starts with the temporary directory and ends with a dash and the module id |
| OpenWeather.CacheFilesDistinct | ow-popup.py:211-217 | the weather and the forecast cache files never coincide, for any temporary directory and module id |
| OpenWeather.MainModuleId | ow-popup.py:181-203 | `main` never sets "module-id", so after defaults filling it is "owm" |
| OpenWeather.NeedsFetch | ow-popup.py:256-258 | data is refetched when the cache file is missing or at least `interval` seconds old, and not when it is at most `interval - 1` seconds old |
| OpenWeather.NeedsFetchWholeSeconds | ow-popup.py:256-258 | for a whole number of seconds the cache is refetched exactly when it is at least `interval` seconds old; a fractional age can refetch up to one second early |
| OpenWeather.ForecastShown | ow-popup.py:428-430 | the popup shows the first min(n, 32) forecast entries, in order |
| OpenWeather.RoundHalfEven | ow-popup.py:455 | `round(x, 0)` is within one half of x, and a tie goes to the even integer |
| OpenWeather.TempLabels | ow-popup.py:454-458 | the label list has one entry for each of temp and feels_like that is present and non-zero, the rounded temperature with a degree sign first and the rounded felt temperature last; a missing "main" is KeyError("main") |
| OpenWeather.ForecastTemperatures | ow-popup.py:454-461 | as written the cell raises IndexError exactly when temp or feels_like is missing or zero; otherwise it reads "T° (F°)" with both rounded |
| OpenWeather.TwoLabelCell | ow-popup.py:459-461 | joining a temperature and the bracketed felt temperature with a space gives "t (f)" |
| OpenWeather.ForecastTemperaturesFixed | ow-popup.py:454-461 | the corrected cell fails only on a missing "main"; with a single label it is that label, with none it is "", and otherwise it agrees with the code as written |
| OpenWeather.ZeroTemperatureRow | ow-popup.py:454-461 | a forecast entry at exactly 0 degrees with feels_like -4.2 makes the cell as written raise IndexError; the corrected cell shows "-4°" |
| Tools.FirstSetIndex | tools.py:31-39 | the ordered fallback chain: the position of the first variable that is set and non-empty, all earlier ones being unset or empty |
| Tools.TempDir | tools.py:31-39 | the temporary directory is the first non-empty value among TMPDIR, TEMP and TMP, in that order, otherwise "/tmp"; never "" |
| Tools.PathJoin | tools.py:54 | `os.path.join(a, b)`: an absolute b wins; otherwise the result starts with a, ends with b, and has one '/' before b when a is non-empty: a plus b when a already ends in '/', else a '/' inserted |
| Tools.DataDirs | tools.py:47-51 | XDG_DATA_DIRS when set and non-empty, otherwise the default "/usr/local/share/:/usr/share/" |
| Tools.DefaultDataDirsSplit | tools.py:47-51 | the default XDG_DATA_DIRS splits into "/usr/local/share/" and "/usr/share/" |
| Tools.AppsUnder | tools.py:59-60 | each directory contributes exactly its "applications" subdirectory, in order |
| Tools.AppendUnique | tools.py:67-69 | the directory is present afterwards; the list is unchanged if it already held it, otherwise the directory is appended once at the end |
| Tools.AppendAllUnique | tools.py:62-69 | appending only keeps the existing prefix, adds each missing directory, and adds nothing already present |
| Tools.AppendAllUniqueOrder | tools.py:67-69 | every appended entry comes from the directories iterated, and the appended entries are in iteration order: of any two, the earlier one occurs first |
| Tools.GetAppDirs | tools.py:42-71 | as written the list fails with TypeError exactly when HOME is unset |
| Tools.FlatpakDirs | tools.py:63-66 | with HOME set, the per-user flatpak directory then the system one; without HOME, only the system flatpak directory |
| Tools.AppDirs | tools.py:42-71 | the corrected list equals the code's result whenever HOME is set, and always holds the system flatpak directory (without HOME it is the listed directories plus the system flatpak directory, as `AppDirsFlatpak` states) |
| Tools.AppDirsWithoutHome | tools.py:63-66 | without HOME the code as written fails, while the corrected list still includes the system flatpak directory |
| Tools.AppDirsFirst | tools.py:53-57 | the first entry is XDG_DATA_HOME/applications, else HOME/.local/share/applications, else the first XDG_DATA_DIRS entry |
| Tools.AppDirsDataEntries | tools.py:47-60 | right after the per-user entry, each ':'-separated piece of XDG_DATA_DIRS gives its "applications" entry, in order |
| Tools.ListedTail | tools.py:53-60 | before the flatpak step the list is the per-user entry (if any) followed by exactly one entry per XDG_DATA_DIRS piece |
| Tools.AppDirsFlatpak | tools.py:62-69 | the flatpak step keeps the earlier list as a prefix, adds at most one entry per flatpak directory, leaves each flatpak directory present, and adds no duplicate; it is the per-user flatpak directory appended if missing and then the system one when HOME is set; without HOME the result is the earlier list with only the system flatpak directory appended if missing |
| Tools.CheckKey | tools.py:143-148 | `check_key` adds the key only when missing; existing values and all other keys are unchanged |
| Tools.CheckKeyIdempotent | tools.py:143-148 | a second `check_key` on the same key changes nothing, whatever default it offers |
| Tools.PadTwo | tools.py:199-204 | a field shorter than two characters gets one leading '0'; a longer one is left as it is |
| Tools.PaddedReadsBack | tools.py:198-204 | a zero-padded field reads back as the number it renders |
| Tools.Seconds2String | tools.py:194-206 | the result has at least five characters, with ':' third from the end |
| Tools.Seconds2StringFields | tools.py:194-206 | the minutes field is two digits reading back as (s div 60) mod 60; for s >= 0 the hours field reads back as s div 3600 and is exactly two characters below 10 hours and the digits of the hours from 10 hours on, so it never starts with '0' from 10 hours on |
| Tools.Seconds2StringDropsSeconds | tools.py:195 | the leftover seconds do not show: s and s minus its seconds format the same |
| Tools.HoursOfSeconds | tools.py:195-196 | two floor divisions by 60 equal one floor division by 3600 |

## Left out

- HTTP requests and JSON decoding in `get_weather` and `get_forecast` are left out because they are network I/O. The file cache (`load_json`, `save_json`, `file_age`, `hms`, modification times) is left out because it is file I/O and wall-clock time. Only the refresh rule is modelled, as `NeedsFetch`.
- The request URLs that `OpenWeather.__init__` builds are left out. They format floating-point coordinates into strings. The cache file names are modelled (`CacheFile`), but only for a string module id: `main` never sets one, so it is always the default "owm".
- The Eiffel-Tower fallback for zero coordinates is left out because it works on floating-point settings.
- The temperature formatting of the label, the header and the popup properties (`round(float(…), 1)`) is left out because it is floating point. The same goes for the precipitation probability and the rain and snow volumes.
- The sunrise and sunset clock text and the forecast day and time headers are left out because they depend on the time zone and locale. The `%H:%M` rendering is the parameter `Formatters.hhmm`.
- Python's `str()` of a float is left out because it is floating-point rendering. It is the parameter `Formatters.floatStr`.
- The Pango-markup assembly of `display_popup` and `update_widget` is left out because it is presentation. So are the label properties of `OpenWeather` (`country`, `temp`, `feels_like`, `humidity`, `wind_gust`, …), which wrap a `get_ow_property` text for display: they prefix vocabulary strings, put the country or the gust in parentheses, and round `temp` and `feels_like` as floats before adding a degree sign. The 32-entry cap and the temperature cell are modelled.
- The GTK and GdkPixbuf helpers, `cmd2string`, `is_command`, `create_background_task`, `copy_files`, `copy_executors`, `get_cache_dir`, and the text-file loaders and savers are left out. They use foreign UI libraries, subprocesses, threads or the file system.
- argparse handling is left out. The parsed namespace is the `kwargs` map given to `MainSettings`.
- The shell launcher is left out. It only forwards arguments.
- Capitalize: upper- and lower-cases ASCII letters only. Other characters are left as they are, whereas Python applies full Unicode case mapping.
- Kilometres: divides the metres exactly. Python's float division can round for values beyond 2^53.
- Seconds2StringFields: states the hours field only for non-negative durations. For a negative one the hours field is Python's signed `str()`, as `IntToString` states.
- JSON values of an unexpected type are left out: each field has the type the weather service sends. For `wind.deg`, `visibility` and the forecast temperatures such a value would make Python raise TypeError: the comparisons in `direction`, the division by 1000 and `round` do not accept it. Humidity, pressure, wind speed and gust, cloudiness and country are only formatted with `"{}".format`, which accepts any value.
- A property that yields nothing returns `None` in Python. `join` treats it like "", and the model passes "".

## Findings

| source | as written | input that shows it | evidently intended | confidence | as-written member | corrected member |
|---|---|---|---|---|---|---|
| ow-popup.py:557 | `main` writes the setting "show-visibilty", but the class reads "show-visibility" (line 490), whose default is False | any command line, including one with `--show-visibilty` | the flag switches the visibility item on; this needs both the key at line 557 and the option at line 600 spelt "visibility", since renaming only the key still leaves the switch off (OpenWeather.VisibilityNeedsBothRenames) | high; not executed | OpenWeather.VisibilitySwitchAlwaysOff | OpenWeather.VisibilityFollowsFlag |
| tools.py:64 | `os.path.join(home, …)` runs even when HOME is unset, so it raises TypeError, although line 56 guards against a missing HOME | an environment without HOME, e.g. only XDG_DATA_HOME=/data | skip the per-user flatpak directory when HOME is unset | medium; not executed | Tools.AppDirsWithoutHome | Tools.AppDirs |
| ow-popup.py:459 | `values[1]` is read although the list drops zero or missing temperatures, so the forecast row raises IndexError | a forecast entry with temp 0.0 and feels_like -4.2 | wrap the felt temperature only when there are two values | medium; not executed | OpenWeather.ZeroTemperatureRow | OpenWeather.ForecastTemperaturesFixed |

=== FILE: open_weather.dfy ===
/** The OpenWeather class of ow-popup.py and its caller `main`, as far as they are
    pure: the settings `main` builds from the command line, the defaults the class
    fills in, the refresh rule for the cached files, the 32-entry cap on forecast
    rows, and the temperature cell of a forecast row. */
module OpenWeather {
  import opened Wrappers
  import opened PyStr
  import opened Tools
  import opened OwPopup

  /** A settings value: the JSON/argparse scalars the settings dictionary holds. */
  datatype Setting = SStr(s: string) | SInt(i: int) | SReal(x: real) | SBool(b: bool) {
    /** Python truthiness. */
    predicate IsTruthy() {
      match this
      case SStr(s) => s != ""
      case SInt(i) => i != 0
      case SReal(x) => x != 0.0
      case SBool(b) => b
    }
  }

  type Settings = map<string, Setting>

  /** The defaults of `OpenWeather.__init__`. */
  const Defaults: Settings := map[
    "appid" := SStr(""),
    "lat" := SReal(48.8583701),
    "long" := SReal(2.2944813),
    "lang" := SStr("fr"),
    "units" := SStr("metric"),
    "interval" := SInt(1800),
    "loc-name" := SStr("Paris"),
    "show-name" := SBool(false),
    "popup-text-size" := SStr("medium"),
    "popup-forecast-size" := SStr("small"),
    "show-humidity" := SBool(false),
    "show-wind" := SBool(false),
    "show-pressure" := SBool(false),
    "show-cloudiness" := SBool(false),
    "show-visibility" := SBool(false),
    "show-pop" := SBool(false),
    "show-volume" := SBool(false),
    "module-id" := SStr("owm")
  ]

  /** The defaults-filling loop of `OpenWeather.__init__`: `check_key` for every
      default in turn. Afterwards every default key is present, every key the caller
      supplied keeps its value, and a missing key holds its default; that is, the
      result is the defaults overridden by the caller's settings. */
  method ApplyDefaults(settings: Settings, defaults: Settings) returns (r: Settings)
    ensures r.Keys == settings.Keys + defaults.Keys
    ensures forall k :: k in settings ==> r[k] == settings[k]
    ensures forall k :: k in defaults && k !in settings ==> r[k] == defaults[k]
    ensures r == defaults + settings
  {
    r := settings;
    var todo := defaults.Keys;
    while todo != {}
      invariant todo <= defaults.Keys
      invariant r.Keys == settings.Keys + (defaults.Keys - todo)
      invariant forall k :: k in settings ==> r[k] == settings[k]
      invariant forall k :: k in r && k !in settings ==> k in defaults && r[k] == defaults[k]
      decreases todo
    {
      var k :| k in todo;
      r := CheckKey(r, k, defaults[k]);
      todo := todo - {k};
    }
    assert r.Keys == (defaults + settings).Keys;
  }

  /** `kwargs.get(k, d)`. */
  function Get(kwargs: Settings, k: string, d: Setting): Setting {
    if k in kwargs then kwargs[k] else d
  }

  /** `kwargs.get(f"show_{k}", False)`. */
  function Flag(kwargs: Settings, k: string): Setting {
    Get(kwargs, "show_" + k, SBool(false))
  }

  /** The `show-…` switches `main` creates, as written: the sixth is misspelt
      "visibilty", both in the key it reads and in the key it writes. */
  function ShowFlags(kwargs: Settings): (r: Settings)
    ensures "show-visibility" !in r && "module-id" !in r && "interval" !in r
    ensures "show-visibilty" in r && r["show-visibilty"] == Flag(kwargs, "visibilty")
  {
    map[
      "show-name" := Flag(kwargs, "name"),
      "show-humidity" := Flag(kwargs, "humidity"),
      "show-wind" := Flag(kwargs, "wind"),
      "show-pressure" := Flag(kwargs, "pressure"),
      "show-cloudiness" := Flag(kwargs, "cloudiness"),
      "show-visibilty" := Flag(kwargs, "visibilty"),
      "show-pop" := Flag(kwargs, "pop"),
      "show-volume" := Flag(kwargs, "volume")
    ]
  }

  /** The same switches spelt as the class reads them. */
  function ShowFlagsFixed(kwargs: Settings): Settings {
    map[
      "show-name" := Flag(kwargs, "name"),
      "show-humidity" := Flag(kwargs, "humidity"),
      "show-wind" := Flag(kwargs, "wind"),
      "show-pressure" := Flag(kwargs, "pressure"),
      "show-cloudiness" := Flag(kwargs, "cloudiness"),
      "show-visibility" := Flag(kwargs, "visibility"),
      "show-pop" := Flag(kwargs, "pop"),
      "show-volume" := Flag(kwargs, "volume")
    ]
  }

  /** The settings `main` builds from the parsed command line, as written: every
      default but "module-id" and "show-visibility", plus the misspelt switch. */
  function MainSettings(kwargs: Settings): (r: Settings)
    ensures "show-visibility" !in r && "module-id" !in r
    ensures "show-visibilty" in r && r["show-visibilty"] == Get(kwargs, "show_visibilty", SBool(false))
    ensures "interval" in r && r["interval"] == SInt(1800)
  {
    var base := BaseSettings(kwargs);
    var flags := ShowFlags(kwargs);
    assert "show_" + "visibilty" == "show_visibilty";
    base + flags
  }

  /** The settings `main` builds, with the switch spelt as the class reads it:
      every default but "module-id". */
  function MainSettingsFixed(kwargs: Settings): (r: Settings)
    ensures r.Keys == Defaults.Keys - {"module-id"}
  {
    BaseSettings(kwargs) + ShowFlagsFixed(kwargs)
  }

  /** The first two dictionaries `main` merges. */
  function BaseSettings(kwargs: Settings): (r: Settings)
    ensures "show-visibility" !in r && "show-visibilty" !in r && "module-id" !in r
    ensures "interval" in r && r["interval"] == SInt(1800)
  {
    map[
      "popup-text-size" := SStr("medium"),
      "popup-forecast-size" := SStr("small"),
      "interval" := SInt(1800),
      "loc-name" := Get(kwargs, "city_name", SStr("")),
      "appid" := Get(kwargs, "appid", SStr("")),
      "lat" := Get(kwargs, "lat", SReal(0.0)),
      "long" := Get(kwargs, "lon", SReal(0.0)),
      "lang" := Get(kwargs, "lang", SStr("fr")),
      "units" := Get(kwargs, "units", SStr("metric"))
    ]
  }

  /** As written, `main` never sets "show-visibility", so once the class has filled
      in its defaults the switch for the visibility item of the forecast rows is
      off, whatever the command line says. */
  lemma VisibilitySwitchAlwaysOff(kwargs: Settings)
    ensures var s := Defaults + MainSettings(kwargs);
      "show-visibility" in s && !s["show-visibility"].IsTruthy()
  {
  }

  /** With the spelling fixed, the visibility switch follows the command-line flag. */
  lemma VisibilityFollowsFlag(kwargs: Settings)
    ensures var s := Defaults + MainSettingsFixed(kwargs);
      "show-visibility" in s && s["show-visibility"] == Get(kwargs, "show_visibility", SBool(false))
  {
    assert "show_" + "visibility" == "show_visibility";
  }

  /** Fixing the key `main` writes is not enough on its own: the command-line
      option is spelt "--show-visibilty" too, so the parsed arguments carry
      "show_visibilty", which the fixed key does not read. */
  lemma VisibilityNeedsBothRenames()
    ensures var kwargs := map["show_visibilty" := SBool(true)];
      (Defaults + MainSettingsFixed(kwargs))["show-visibility"] == SBool(false)
  {
    var kwargs := map["show_visibilty" := SBool(true)];
    assert "show_" + "visibility" == "show_visibility";
    assert "show_visibility" !in kwargs;
  }

  /** A cache file name of `OpenWeather.__init__`: the stem joined onto the
      temporary directory, then a dash and the module id. */
  function CacheFile(tmpDir: string, stem: string, moduleId: string): (r: string)
    ensures !IsAbsolute(stem) ==> |r| >= |tmpDir| && r[..|tmpDir|] == tmpDir
    ensures |r| > |moduleId| && r[|r| - |moduleId| - 1..] == "-" + moduleId
  {
    var p := PathJoin(tmpDir, stem);
    assert (p + "-" + moduleId)[|p|..] == "-" + moduleId;
    p + "-" + moduleId
  }

  /** The weather and the forecast are cached in different files, whatever the
      temporary directory and the module id. */
  lemma CacheFilesDistinct(tmpDir: string, moduleId: string)
    ensures CacheFile(tmpDir, "ow-weather", moduleId) != CacheFile(tmpDir, "ow-forecast", moduleId)
  {
    var pre := if tmpDir == "" || tmpDir[|tmpDir| - 1] == '/' then tmpDir else tmpDir + "/";
    assert PathJoin(tmpDir, "ow-weather") == pre + "ow-weather";
    assert PathJoin(tmpDir, "ow-forecast") == pre + "ow-forecast";
    StemsDiffer(pre, moduleId);
  }

  lemma StemsDiffer(pre: string, moduleId: string)
    ensures pre + "ow-weather" + "-" + moduleId != pre + "ow-forecast" + "-" + moduleId
  {
    assert (pre + "ow-weather" + "-" + moduleId)[|pre| + 3] == 'w';
    assert (pre + "ow-forecast" + "-" + moduleId)[|pre| + 3] == 'f';
  }

  /** `main` never sets "module-id", so once the defaults are filled in both cache
      files end in "-owm". */
  lemma MainModuleId(kwargs: Settings)
    ensures var s := Defaults + MainSettings(kwargs);
      "module-id" in s && s["module-id"] == SStr("owm")
  {
  }

  /** `get_weather` / `get_forecast` request fresh data when the cached file is
      missing or older than `interval - 1` seconds. */
  function NeedsFetch(fileExists: bool, age: real, interval: int): (r: bool)
    ensures !fileExists ==> r
    ensures age >= interval as real ==> r
    ensures fileExists && age <= (interval - 1) as real ==> !r
  {
    !fileExists || age > (interval - 1) as real
  }

  /** For a whole number of seconds this is "at least `interval` seconds old";
      a fractional age refetches up to one second early. */
  lemma NeedsFetchWholeSeconds(age: int, interval: int)
    ensures NeedsFetch(true, age as real, interval) <==> age >= interval
    ensures NeedsFetch(true, interval as real - 0.5, interval)
    ensures !NeedsFetch(true, (interval - 1) as real, interval)
  {
  }

  /** The forecast rows `display_popup` shows: it walks the list and stops after
      index 31, so at most the first 32 entries appear, in order. */
  method ForecastShown<T>(entries: seq<T>) returns (shown: seq<T>)
    ensures |shown| == if |entries| < 32 then |entries| else 32
    ensures shown == entries[..|shown|]
  {
    shown := [];
    var i := 0;
    while i < |entries|
      invariant 0 <= i <= |entries| && i <= 32
      invariant shown == entries[..i]
    {
      if i > 31 {
        break;
      }
      shown := shown + [entries[i]];
      i := i + 1;
    }
  }

  /** Python's `round(x, 0)` on a float: the nearest integer, ties to the even one. */
  function RoundHalfEven(x: real): (r: int)
    ensures r as real - 0.5 <= x <= r as real + 0.5
    ensures x == r as real - 0.5 || x == r as real + 0.5 ==> r % 2 == 0
  {
    var f := x.Floor;
    var d := x - f as real;
    if d < 0.5 then f
    else if d > 0.5 then f + 1
    else if f % 2 == 0 then f
    else f + 1
  }

  /** `int(round(v, 0))` of a JSON number. */
  function RoundNumber(n: Number): int {
    match n
    case Int(i) => i
    case Float(x) => RoundHalfEven(x)
  }

  /** The comprehension's contribution for one property: "N°" for a number, nothing
      for the empty string (the only text "temp" and "feels_like" produce). */
  function TempLabel(p: Prop): (r: seq<string>)
    ensures |r| <= 1
    ensures p.Num? <==> |r| == 1
  {
    if p.Num? then [Degrees(p.n)] else []
  }

  /** `"{}°".format(str(int(round(v, 0))))`: the rounded number and a degree sign. */
  function Degrees(n: Number): string {
    IntToString(RoundNumber(n)) + "°"
  }

  /** The list of temperature labels of a forecast entry: its temperature and its
      felt temperature, each only when non-zero. */
  function TempLabels(data: Record, fmt: Formatters): (r: Result<seq<string>, PyError>)
    ensures r.Err? <==> data.main.None?
    ensures data.main.None? ==> r == Err(KeyError("main"))
    ensures r.Ok? ==> |r.value| == (if data.main.value.temp.Some? && data.main.value.temp.value.IsTruthy() then 1 else 0)
                                 + (if data.main.value.feelsLike.Some? && data.main.value.feelsLike.value.IsTruthy() then 1 else 0)
    ensures r.Ok? && data.main.value.temp.Some? && data.main.value.temp.value.IsTruthy() ==>
      r.value[0] == Degrees(data.main.value.temp.value)
    ensures r.Ok? && data.main.value.feelsLike.Some? && data.main.value.feelsLike.value.IsTruthy() ==>
      r.value[|r.value| - 1] == Degrees(data.main.value.feelsLike.value)
  {
    if data.main.None? then Err(KeyError("main"))
    else
      var t := GetOwProperty(data, "temp", fmt);
      var f := GetOwProperty(data, "feels_like", fmt);
      Ok(TempLabel(t.value) + TempLabel(f.value))
  }

  /** The temperature cell of a forecast row as written: `values[1]` is read
      unconditionally, so the cell raises IndexError unless both temperatures are
      present and non-zero. */
  function ForecastTemperatures(data: Record, fmt: Formatters): (r: Result<string, PyError>)
    ensures data.main.Some? ==>
      (r.Err? <==> !(data.main.value.temp.Some? && data.main.value.temp.value.IsTruthy()
                     && data.main.value.feelsLike.Some? && data.main.value.feelsLike.value.IsTruthy()))
    ensures r.Err? && data.main.Some? ==> r.error == IndexError
    ensures data.main.None? ==> r == Err(KeyError("main"))
    ensures r.Ok? ==> data.main.Some? && data.main.value.temp.Some? && data.main.value.feelsLike.Some?
    ensures r.Ok? ==> r.value == Degrees(data.main.value.temp.value) + " ("
                                 + Degrees(data.main.value.feelsLike.value) + ")"
  {
    var vs := TempLabels(data, fmt);
    if vs.Err? then Err(vs.error)
    else if |vs.value| < 2 then Err(IndexError)
    else
      var t := vs.value[0];
      var f := vs.value[1];
      TwoLabelCell(t, f);
      Ok(Join([t, "(" + f + ")"], " "))
  }

  /** Two labels make the cell "t (f)". */
  lemma TwoLabelCell(t: string, f: string)
    requires t != ""
    ensures Join([t, "(" + f + ")"], " ") == t + " (" + f + ")"
  {
    var cell := [t, "(" + f + ")"];
    assert cell[1..] == ["(" + f + ")"] && cell[1..][1..] == [];
    assert NonEmpty(cell) == cell;
    assert JoinWith(cell, " ") == cell[0] + " " + JoinWith(cell[1..], " ");
  }

  /** The temperature cell as evidently intended: the felt temperature is wrapped
      in parentheses when there are two labels, and a zero temperature no longer
      makes the row fail. */
  function ForecastTemperaturesFixed(data: Record, fmt: Formatters): (r: Result<string, PyError>)
    ensures r.Err? <==> data.main.None?
    ensures ForecastTemperatures(data, fmt).Ok? ==> r == ForecastTemperatures(data, fmt)
    ensures data.main.Some? && |TempLabels(data, fmt).value| == 1 ==> r == Ok(TempLabels(data, fmt).value[0])
    ensures data.main.Some? && |TempLabels(data, fmt).value| == 0 ==> r == Ok("")
  {
    var vs := TempLabels(data, fmt);
    if vs.Err? then Err(vs.error)
    else if |vs.value| < 2 then
      if |vs.value| == 1 then
        assert vs.value == [vs.value[0]];
        JoinOne(vs.value[0], " ");
        Ok(Join(vs.value, " "))
      else Ok(Join(vs.value, " "))
    else Ok(Join([vs.value[0], "(" + vs.value[1] + ")"], " "))
  }

  /** A forecast entry at exactly 0 degrees makes the row as written fail, while
      the corrected cell shows the felt temperature. */
  lemma ZeroTemperatureRow(fmt: Formatters)
    ensures var data := Record(None, None, Some(MainData(Some(Float(0.0)), Some(Float(-4.2)), None, None)),
                               None, None, None);
      && ForecastTemperatures(data, fmt) == Err(IndexError)
      && ForecastTemperaturesFixed(data, fmt) == Ok("-4°")
  {
    var data := Record(None, None, Some(MainData(Some(Float(0.0)), Some(Float(-4.2)), None, None)),
                       None, None, None);
    assert RoundHalfEven(-4.2) == -4;
    assert IntToString(-4) == "-4";
    assert GetOwProperty(data, "temp", fmt) == Ok(Str(""));
    assert GetOwProperty(data, "feels_like", fmt) == Ok(Num(Float(-4.2)));
    assert RoundNumber(Float(-4.2)) == -4;
    assert IntToString(-4) + "°" == "-4°";
    assert Degrees(Float(-4.2)) == "-4°";
    assert TempLabel(Num(Float(-4.2))) == ["-4°"];
    assert TempLabels(data, fmt) == Ok([] + ["-4°"]);
    assert NonEmpty(["-4°"]) == ["-4°"];
  }
}

=== FILE: ow_popup.dfy ===
/** The free functions of ow-popup.py: the weather-code icon table, wind-direction
    bucketing, the filtered string join, and property extraction from a weather
    record of the OpenWeatherMap API. */
module OwPopup {
  import opened Wrappers
  import opened PyStr

  /** Glyph for an unknown weather code (U+2728 SPARKLES). */
  const Fallback: string := "\U{2728}"

  /** Weather condition codes to glyphs of the private-use area of an icon font,
      one map per group of the OpenWeatherMap code list. */
  const ClearAndClouds: map<int, string> := map[
    800 := "\U{F185}",
    801 := "\U{F746}",
    802 := "\U{F0C2}",
    803 := "\U{F0C2}",
    804 := "\U{F744}"
  ]
  const Drizzle: map<int, string> := map[
    300 := "\U{F738}",
    301 := "\U{F738}",
    302 := "\U{F738}",
    310 := "\U{F738}",
    311 := "\U{F738}",
    312 := "\U{F738}",
    313 := "\U{F738}",
    314 := "\U{F738}",
    321 := "\U{F738}"
  ]
  const Rain: map<int, string> := map[
    500 := "\U{F738}",
    501 := "\U{F73F}",
    502 := "\U{F740}",
    503 := "\U{F740}",
    504 := "\U{F740}",
    511 := "\U{F2DC}",
    520 := "\U{F738}",
    521 := "\U{F73F}",
    522 := "\U{F740}",
    531 := "\U{F740}"
  ]
  const Thunderstorm: map<int, string> := map[
    200 := "\U{F76C}",
    201 := "\U{F76C}",
    202 := "\U{F76C}",
    210 := "\U{F76C}",
    211 := "\U{F76C}",
    212 := "\U{F76C}",
    221 := "\U{F76C}",
    230 := "\U{F76C}",
    231 := "\U{F76C}",
    232 := "\U{F76C}"
  ]
  const Snow: map<int, string> := map[
    600 := "\U{F742}",
    601 := "\U{F742}",
    602 := "\U{F742}",
    611 := "\U{F741}",
    612 := "\U{F741}",
    613 := "\U{F741}",
    615 := "\U{F741}",
    616 := "\U{F741}",
    620 := "\U{F742}",
    621 := "\U{F742}",
    622 := "\U{F742}"
  ]
  const Atmosphere: map<int, string> := map[
    701 := "\U{F74E}",
    711 := "\U{F760}",
    721 := "\U{F765}",
    731 := "\U{F74E}",
    741 := "\U{F74E}",
    751 := "\U{F74E}",
    761 := "\U{F74E}",
    762 := "\U{F770}",
    771 := "\U{F74E}",
    781 := "\U{F76F}"
  ]

  /** The whole `icons` table. */
  const Icons: map<int, string> := ClearAndClouds + Drizzle + Rain + Thunderstorm + Snow + Atmosphere

  /** `get_icon`: the table entry, or the fallback glyph for a code outside the table. */
  function GetIcon(id: int): (r: string)
    ensures id in Icons ==> r == Icons[id]
    ensures id !in Icons ==> r == Fallback
  {
    if id in Icons then Icons[id] else Fallback
  }

  /** One character of the Unicode private-use area U+E000..U+F8FF. */
  predicate IsGlyph(g: string) {
    |g| == 1 && '\U{E000}' <= g[0] <= '\U{F8FF}'
  }

  predicate AllGlyphs(m: map<int, string>) {
    forall id :: id in m ==> IsGlyph(m[id])
  }

  lemma GlyphsUnion(a: map<int, string>, b: map<int, string>)
    requires AllGlyphs(a) && AllGlyphs(b)
    ensures AllGlyphs(a + b)
  {
  }

  lemma ClearAndCloudsGlyphs()
    ensures AllGlyphs(ClearAndClouds)
  {
  }

  lemma DrizzleGlyphs()
    ensures AllGlyphs(Drizzle)
  {
  }

  lemma RainGlyphs()
    ensures AllGlyphs(Rain)
  {
  }

  lemma ThunderstormGlyphs()
    ensures AllGlyphs(Thunderstorm)
  {
  }

  lemma SnowGlyphs()
    ensures AllGlyphs(Snow)
  {
  }

  lemma AtmosphereGlyphs()
    ensures AllGlyphs(Atmosphere)
  {
  }

  /** Every glyph of the table is one private-use character, so none is the fallback. */
  lemma IconsArePrivateUse()
    ensures AllGlyphs(Icons)
  {
    ClearAndCloudsGlyphs();
    DrizzleGlyphs();
    RainGlyphs();
    ThunderstormGlyphs();
    SnowGlyphs();
    AtmosphereGlyphs();
    GlyphsUnion(ClearAndClouds, Drizzle);
    GlyphsUnion(ClearAndClouds + Drizzle, Rain);
    GlyphsUnion(ClearAndClouds + Drizzle + Rain, Thunderstorm);
    GlyphsUnion(ClearAndClouds + Drizzle + Rain + Thunderstorm, Snow);
    GlyphsUnion(ClearAndClouds + Drizzle + Rain + Thunderstorm + Snow, Atmosphere);
  }

  /** The fallback glyph shows exactly for the codes missing from the table. */
  lemma GetIconFallbackIff(id: int)
    ensures GetIcon(id) == Fallback <==> id !in Icons
  {
    IconsArePrivateUse();
    if id in Icons {
      assert IsGlyph(Icons[id]);
    }
  }

  /** `direction`: the compass point of a wind bearing in degrees, checked in the
      source's order, so 293 falls in the W bucket before the overlapping NW one;
      "WTF" when no bucket holds the value. */
  function Direction(deg: real): (r: string)
    ensures r in {"N", "NE", "E", "SE", "S", "SW", "W", "NW", "WTF"}
    ensures r == "WTF" ==> deg < 0.0 || deg > 360.0 || deg != deg.Floor as real
  {
    if (0.0 <= deg <= 23.0) || (337.0 <= deg <= 360.0) then "N"
    else if 24.0 <= deg <= 68.0 then "NE"
    else if 69.0 <= deg <= 113.0 then "E"
    else if 114.0 <= deg <= 158.0 then "SE"
    else if 159.0 <= deg <= 203.0 then "S"
    else if 204.0 <= deg <= 248.0 then "SW"
    else if 249.0 <= deg <= 293.0 then "W"
    else if 293.0 <= deg <= 336.0 then "NW"
    else "WTF"
  }

  /** The seven compass points after north, each owning a 45-degree sector from 24 on. */
  const Sectors: seq<string> := ["NE", "E", "SE", "S", "SW", "W", "NW"]

  /** Whole degrees 0..23 and 337..360 are north. */
  lemma DirectionNorth(d: int)
    requires 0 <= d <= 23 || 337 <= d <= 360
    ensures Direction(d as real) == "N"
  {
  }

  /** A whole degree is "WTF" exactly when it lies outside 0..360. */
  lemma DirectionWholeDegrees(d: int)
    ensures Direction(d as real) == "WTF" <==> d < 0 || d > 360
  {
  }

  /** From 24 to 336 the buckets are the 45-degree sectors starting at 24, so 293
      is west and north-west starts at 294. */
  lemma DirectionSectors(d: int)
    requires 24 <= d <= 336
    ensures 0 <= (d - 24) / 45 < |Sectors|
    ensures Direction(d as real) == Sectors[(d - 24) / 45]
  {
    var k := (d - 24) / 45;
    assert 45 * k <= d - 24 < 45 * k + 45;
    assert k == 0 || k == 1 || k == 2 || k == 3 || k == 4 || k == 5 || k == 6;
  }

  /** 293 is claimed by both the W and the NW bucket; the W branch comes first. */
  lemma DirectionOverlap()
    ensures Direction(293.0) == "W"
  {
  }

  /** A bearing strictly between two neighbouring whole-degree buckets falls
      through every test. */
  lemma DirectionFractionalGap(k: int, x: real)
    requires k in {23, 68, 113, 158, 203, 248, 336}
    requires k as real < x < (k + 1) as real
    ensures Direction(x) == "WTF"
  {
  }

  /** The open gaps between neighbouring buckets: 23..24, 68..69, …, 336..337. */
  predicate InGap(x: real) {
    || 23.0 < x < 24.0 || 68.0 < x < 69.0 || 113.0 < x < 114.0 || 158.0 < x < 159.0
    || 203.0 < x < 204.0 || 248.0 < x < 249.0 || 336.0 < x < 337.0
  }

  /** Exactly the bearings outside 0..360 or inside a gap give "WTF". */
  lemma DirectionWtfIff(x: real)
    ensures Direction(x) == "WTF" <==> x < 0.0 || x > 360.0 || InGap(x)
  {
  }

  /** The non-empty parts, in their original order (Python's `filter` on truthiness). */
  function NonEmpty(parts: seq<string>): (r: seq<string>)
    ensures |r| <= |parts|
    ensures forall i :: 0 <= i < |r| ==> r[i] != ""
    ensures forall p :: p in parts && p != "" <==> p in r
    ensures forall p :: multiset(r)[p] == if p == "" then 0 else multiset(parts)[p]
    decreases |parts|
  {
    if |parts| == 0 then []
    else
      var head := if parts[0] == "" then [] else [parts[0]];
      assert parts == [parts[0]] + parts[1..];
      assert multiset(parts) == multiset([parts[0]]) + multiset(parts[1..]);
      head + NonEmpty(parts[1..])
  }

  /** Filtering a concatenation filters each run in place: the kept arguments keep
      their relative order. */
  lemma {:induction false} NonEmptyConcat(a: seq<string>, b: seq<string>)
    ensures NonEmpty(a + b) == NonEmpty(a) + NonEmpty(b)
    decreases |a|
  {
    if |a| > 0 {
      assert (a + b)[1..] == a[1..] + b;
      NonEmptyConcat(a[1..], b);
    } else {
      assert a + b == b;
    }
  }

  /** `join(*args, sep=sep)`: the non-empty arguments joined by `sep`. */
  function Join(parts: seq<string>, sep: string): (r: string)
    ensures (forall i :: 0 <= i < |parts| ==> parts[i] == "") ==> r == ""
    ensures |NonEmpty(parts)| == 1 ==> r == NonEmpty(parts)[0]
  {
    var kept := NonEmpty(parts);
    assert (forall i :: 0 <= i < |parts| ==> parts[i] == "") ==> kept == [] by {
      if |kept| > 0 {
        assert kept[0] in kept;
      }
    }
    JoinWith(kept, sep)
  }

  lemma {:induction false} JoinWithConcat(a: seq<string>, b: seq<string>, sep: string)
    requires |a| > 0 && |b| > 0
    ensures JoinWith(a + b, sep) == JoinWith(a, sep) + sep + JoinWith(b, sep)
    decreases |a|
  {
    if |a| > 1 {
      assert (a + b)[1..] == a[1..] + b;
      JoinWithConcat(a[1..], b, sep);
    } else {
      assert (a + b)[1..] == b;
    }
  }

  lemma {:induction false} JoinWithNonEmpty(parts: seq<string>, sep: string)
    requires forall i :: 0 <= i < |parts| ==> parts[i] != ""
    ensures JoinWith(parts, sep) == "" <==> |parts| == 0
    decreases |parts|
  {
    if |parts| > 1 {
      JoinWithNonEmpty(parts[1..], sep);
    }
  }

  /** Joining two runs of arguments puts `sep` between their joins only when both
      are non-empty: empty arguments never produce a stray separator. */
  lemma JoinConcat(a: seq<string>, b: seq<string>, sep: string)
    ensures Join(a + b, sep) ==
      if Join(a, sep) == "" then Join(b, sep)
      else if Join(b, sep) == "" then Join(a, sep)
      else Join(a, sep) + sep + Join(b, sep)
  {
    NonEmptyConcat(a, b);
    JoinWithNonEmpty(NonEmpty(a), sep);
    JoinWithNonEmpty(NonEmpty(b), sep);
    if |NonEmpty(a)| > 0 && |NonEmpty(b)| > 0 {
      JoinWithConcat(NonEmpty(a), NonEmpty(b), sep);
    } else if |NonEmpty(a)| == 0 {
      assert NonEmpty(a) + NonEmpty(b) == NonEmpty(b);
    } else {
      assert NonEmpty(a) + NonEmpty(b) == NonEmpty(a);
    }
  }

  /** A single argument is its own join, whatever the separator: a non-empty one
      is kept as it is and an empty one gives "". */
  lemma JoinOne(p: string, sep: string)
    ensures Join([p], sep) == p
  {
    assert [p][1..] == [];
    if p != "" {
      assert NonEmpty([p]) == [p];
    }
  }

  /** `join` read one argument at a time, for any separator: an empty argument adds
      nothing, and a non-empty one is followed by `sep` only when something
      non-empty comes after it. */
  lemma JoinCons(p: string, rest: seq<string>, sep: string)
    ensures Join([p] + rest, sep) ==
      if p == "" then Join(rest, sep)
      else if Join(rest, sep) == "" then p
      else p + sep + Join(rest, sep)
  {
    JoinConcat([p], rest, sep);
    JoinOne(p, sep);
  }

  /** With a one-character separator that no argument contains, splitting the join
      gives back exactly the non-empty arguments, in order. */
  lemma JoinSplitsBack(parts: seq<string>, c: char)
    requires forall i :: 0 <= i < |parts| ==> c !in parts[i]
    requires exists i :: 0 <= i < |parts| && parts[i] != ""
    ensures Split(Join(parts, [c]), c) == NonEmpty(parts)
  {
    var kept := NonEmpty(parts);
    var i :| 0 <= i < |parts| && parts[i] != "";
    assert parts[i] in kept;
    forall j | 0 <= j < |kept|
      ensures c !in kept[j]
    {
      assert kept[j] in kept;
    }
    SplitJoin(kept, c);
  }

  /** A JSON number as decoded by Python: an int or a float. */
  datatype Number = Int(i: int) | Float(x: real) {
    /** Python truthiness: zero is false. */
    predicate IsTruthy() {
      match this
      case Int(i) => i != 0
      case Float(x) => x != 0.0
    }

    function ToReal(): real {
      match this
      case Int(i) => i as real
      case Float(x) => x
    }
  }

  /** The parts of a weather record the helper reads; a missing key is `None`. */
  datatype Sys = Sys(country: Option<string>, sunrise: Option<int>, sunset: Option<int>)
  datatype Condition = Condition(id: Option<int>, description: Option<string>)
  datatype MainData = MainData(temp: Option<Number>, feelsLike: Option<Number>,
                               humidity: Option<Number>, pressure: Option<Number>)
  datatype Wind = Wind(speed: Option<Number>, deg: Option<Number>, gust: Option<Number>)
  datatype Clouds = Clouds(all: Option<Number>)
  datatype Record = Record(
    sys: Option<Sys>,
    weather: Option<seq<Condition>>,
    main: Option<MainData>,
    wind: Option<Wind>,
    clouds: Option<Clouds>,
    visibility: Option<Number>)

  /** What `get_ow_property` returns: text, or for "temp" and "feels_like" the
      number itself. */
  datatype Prop = Str(s: string) | Num(n: Number)

  /** Renderings that depend on the platform: `strftime("%H:%M")` of a timestamp
      in the local time zone, and `str()` of a float. */
  datatype Formatters = Formatters(hhmm: int -> string, floatStr: real -> string)

  /** `"{}".format(n)` of a JSON number. */
  function NumStr(n: Number, fmt: Formatters): string {
    match n
    case Int(i) => IntToString(i)
    case Float(x) => fmt.floatStr(x)
  }

  /** `int(x)`: truncation toward zero. */
  function Trunc(x: real): (r: int)
    ensures 0.0 <= x ==> r as real <= x < r as real + 1.0
    ensures x < 0.0 ==> r as real - 1.0 < x <= r as real
  {
    if x >= 0.0 then x.Floor else -((-x).Floor)
  }

  /** `int(v / 1000)`: whole kilometres of a distance in metres. */
  function Kilometres(v: Number): (r: int)
    ensures 0.0 <= v.ToReal() ==> (r * 1000) as real <= v.ToReal() < (r * 1000 + 1000) as real
    ensures v.ToReal() < 0.0 ==> ((r - 1) * 1000) as real < v.ToReal() <= (r * 1000) as real
  {
    Trunc(v.ToReal() / 1000.0)
  }

  /** For whole metres the kilometres are the quotient rounded toward zero:
      floor division for a non-negative distance, its mirror for a negative one. */
  lemma KilometresOfMetres(m: int)
    ensures m >= 0 ==> Kilometres(Int(m)) == m / 1000
    ensures m < 0 ==> Kilometres(Int(m)) == -((-m) / 1000)
  {
    var q := if m >= 0 then m / 1000 else -((-m) / 1000);
    if m >= 0 {
      assert 1000 * q <= m < 1000 * q + 1000;
      assert (q as real) * 1000.0 <= m as real < (q as real) * 1000.0 + 1000.0;
    } else {
      var p := (-m) / 1000;
      assert 1000 * p <= -m < 1000 * p + 1000;
      assert (p as real) * 1000.0 <= (-m) as real < (p as real) * 1000.0 + 1000.0;
    }
  }

  const SysNames: set<string> := {"country", "sunrise", "sunset"}
  const ConditionNames: set<string> := {"icon", "desc"}
  const MainNames: set<string> := {"temp", "feels_like", "humidity", "pressure"}
  const WindNames: set<string> := {"wind_speed", "wind_dir", "wind_gust"}
  const PropertyNames: set<string> := SysNames + ConditionNames + MainNames + WindNames + {"clouds", "visibility"}

  function MainField(m: MainData, name: string): Option<Number> {
    if name == "temp" then m.temp
    else if name == "feels_like" then m.feelsLike
    else if name == "humidity" then m.humidity
    else m.pressure
  }

  function WindField(w: Wind, name: string): Option<Number> {
    if name == "wind_speed" then w.speed
    else if name == "wind_dir" then w.deg
    else w.gust
  }

  /** A "country", "sunrise" or "sunset" property; `data["sys"]` must exist. */
  function SysProperty(sys: Option<Sys>, name: string, fmt: Formatters): Result<Prop, PyError>
    requires name in SysNames
  {
    if sys.None? then Err(KeyError("sys"))
    else if name == "country" then
      var c := sys.value.country;
      Ok(Str(if c.Some? && c.value != "" then c.value else ""))
    else
      var t := if name == "sunrise" then sys.value.sunrise else sys.value.sunset;
      var mark := if name == "sunrise" then "\U{1F305} " else "\U{1F307} ";
      Ok(Str(if t.Some? && t.value != 0 then mark + fmt.hhmm(t.value) else ""))
  }

  /** An "icon" or "desc" property; `data["weather"][0]` must exist. */
  function ConditionProperty(weather: Option<seq<Condition>>, name: string): Result<Prop, PyError>
    requires name in ConditionNames
  {
    if weather.None? then Err(KeyError("weather"))
    else if |weather.value| == 0 then Err(IndexError)
    else
      var c := weather.value[0];
      if name == "icon" then Ok(Str(if c.id.Some? then GetIcon(c.id.value) else ""))
      else Ok(Str(if c.description.Some? then Capitalize(c.description.value) else ""))
  }

  /** A "temp", "feels_like", "humidity" or "pressure" property; `data["main"]`
      must exist, and a zero value counts as missing. */
  function MainProperty(main: Option<MainData>, name: string, fmt: Formatters): Result<Prop, PyError>
    requires name in MainNames
  {
    if main.None? then Err(KeyError("main"))
    else
      var v := MainField(main.value, name);
      if v.None? || !v.value.IsTruthy() then Ok(Str(""))
      else if name == "humidity" then Ok(Str(NumStr(v.value, fmt) + "%"))
      else if name == "pressure" then Ok(Str(NumStr(v.value, fmt) + " hPa"))
      else Ok(Num(v.value))
  }

  /** A "wind_speed", "wind_dir" or "wind_gust" property; a missing "wind" is no error. */
  function WindProperty(wind: Option<Wind>, name: string, fmt: Formatters): Prop
    requires name in WindNames
  {
    if wind.None? || WindField(wind.value, name).None? then Str("")
    else
      var v := WindField(wind.value, name).value;
      if name == "wind_dir" then Str(Direction(v.ToReal()))
      else Str(NumStr(v, fmt) + " m/s")
  }

  /** `get_ow_property`: one displayable property of a weather record, "" when the
      name is unknown or the field is missing, and the KeyError or IndexError
      Python raises when "sys", "weather" or "main" is absent. */
  function GetOwProperty(data: Record, name: string, fmt: Formatters): (r: Result<Prop, PyError>)
    ensures name !in PropertyNames ==> r == Ok(Str(""))
    ensures r.Err? ==>
      || (name in SysNames && data.sys.None? && r.error == KeyError("sys"))
      || (name in ConditionNames && (data.weather.None? || |data.weather.value| == 0))
      || (name in MainNames && data.main.None? && r.error == KeyError("main"))
    ensures r.Ok? && r.value.Num? ==> name in {"temp", "feels_like"} && r.value.n.IsTruthy()
    ensures name in SysNames && data.sys.None? ==> r == Err(KeyError("sys"))
    ensures name in ConditionNames && data.weather.None? ==> r == Err(KeyError("weather"))
    ensures name in ConditionNames && data.weather.Some? && |data.weather.value| == 0 ==> r == Err(IndexError)
    ensures name in MainNames && data.main.None? ==> r == Err(KeyError("main"))
  {
    if name in SysNames then SysProperty(data.sys, name, fmt)
    else if name in ConditionNames then ConditionProperty(data.weather, name)
    else if name in MainNames then MainProperty(data.main, name, fmt)
    else if name in WindNames then Ok(WindProperty(data.wind, name, fmt))
    else if name == "clouds" then
      Ok(Str(if data.clouds.Some? && data.clouds.value.all.Some?
             then NumStr(data.clouds.value.all.value, fmt) + "%" else ""))
    else if name == "visibility" then
      Ok(Str(if data.visibility.Some? then IntToString(Kilometres(data.visibility.value)) + " km" else ""))
    else Ok(Str(""))
  }

  /** A missing field gives "" (not an error) once its enclosing object exists. */
  lemma OwPropertyMissingField(data: Record, name: string, fmt: Formatters)
    ensures name in MainNames && data.main.Some? && MainField(data.main.value, name).None? ==>
      GetOwProperty(data, name, fmt) == Ok(Str(""))
    ensures name in WindNames && (data.wind.None? || WindField(data.wind.value, name).None?) ==>
      GetOwProperty(data, name, fmt) == Ok(Str(""))
    ensures name == "clouds" && (data.clouds.None? || data.clouds.value.all.None?) ==>
      GetOwProperty(data, name, fmt) == Ok(Str(""))
    ensures name == "visibility" && data.visibility.None? ==>
      GetOwProperty(data, name, fmt) == Ok(Str(""))
    ensures name == "country" && data.sys.Some? && data.sys.value.country.None? ==>
      GetOwProperty(data, name, fmt) == Ok(Str(""))
    ensures name == "icon" && data.weather.Some? && |data.weather.value| > 0 && data.weather.value[0].id.None? ==>
      GetOwProperty(data, name, fmt) == Ok(Str(""))
    ensures name == "desc" && data.weather.Some? && |data.weather.value| > 0
            && data.weather.value[0].description.None? ==>
      GetOwProperty(data, name, fmt) == Ok(Str(""))
    ensures name == "sunrise" && data.sys.Some? && data.sys.value.sunrise.None? ==>
      GetOwProperty(data, name, fmt) == Ok(Str(""))
    ensures name == "sunset" && data.sys.Some? && data.sys.value.sunset.None? ==>
      GetOwProperty(data, name, fmt) == Ok(Str(""))
  {
  }

  /** A zero temperature, feels-like temperature, humidity or pressure gives "". */
  lemma OwPropertyZeroIsEmpty(data: Record, name: string, fmt: Formatters)
    requires name in MainNames && data.main.Some?
    requires MainField(data.main.value, name).Some? && !MainField(data.main.value, name).value.IsTruthy()
    ensures GetOwProperty(data, name, fmt) == Ok(Str(""))
  {
  }

  /** The units and suffixes of the formatted properties. */
  lemma OwPropertyFormats(data: Record, fmt: Formatters)
    ensures data.main.Some? && data.main.value.humidity.Some? && data.main.value.humidity.value.IsTruthy() ==>
      GetOwProperty(data, "humidity", fmt) == Ok(Str(NumStr(data.main.value.humidity.value, fmt) + "%"))
    ensures data.main.Some? && data.main.value.pressure.Some? && data.main.value.pressure.value.IsTruthy() ==>
      GetOwProperty(data, "pressure", fmt) == Ok(Str(NumStr(data.main.value.pressure.value, fmt) + " hPa"))
    ensures data.main.Some? && data.main.value.temp.Some? && data.main.value.temp.value.IsTruthy() ==>
      GetOwProperty(data, "temp", fmt) == Ok(Num(data.main.value.temp.value))
    ensures data.wind.Some? && data.wind.value.speed.Some? ==>
      GetOwProperty(data, "wind_speed", fmt) == Ok(Str(NumStr(data.wind.value.speed.value, fmt) + " m/s"))
    ensures data.wind.Some? && data.wind.value.gust.Some? ==>
      GetOwProperty(data, "wind_gust", fmt) == Ok(Str(NumStr(data.wind.value.gust.value, fmt) + " m/s"))
    ensures data.wind.Some? && data.wind.value.deg.Some? ==>
      GetOwProperty(data, "wind_dir", fmt) == Ok(Str(Direction(data.wind.value.deg.value.ToReal())))
    ensures data.clouds.Some? && data.clouds.value.all.Some? ==>
      GetOwProperty(data, "clouds", fmt) == Ok(Str(NumStr(data.clouds.value.all.value, fmt) + "%"))
  {
  }

  /** Visibility in whole metres reads back, before " km", as the metres divided by
      1000 and rounded down. */
  /** The text of a property whose field is present: the icon glyph, the
      capitalised description, the country code, the sunrise or sunset clock
      after its emoji, and the whole kilometres of visibility. */
  lemma OwPropertyPresentText(data: Record, fmt: Formatters)
    ensures data.weather.Some? && |data.weather.value| > 0 && data.weather.value[0].id.Some? ==>
      GetOwProperty(data, "icon", fmt) == Ok(Str(GetIcon(data.weather.value[0].id.value)))
    ensures data.weather.Some? && |data.weather.value| > 0 && data.weather.value[0].description.Some? ==>
      GetOwProperty(data, "desc", fmt) == Ok(Str(Capitalize(data.weather.value[0].description.value)))
    ensures data.sys.Some? && data.sys.value.country.Some? ==>
      GetOwProperty(data, "country", fmt) == Ok(Str(data.sys.value.country.value))
    ensures data.sys.Some? && data.sys.value.sunrise.Some? && data.sys.value.sunrise.value != 0 ==>
      GetOwProperty(data, "sunrise", fmt) == Ok(Str("\U{1F305} " + fmt.hhmm(data.sys.value.sunrise.value)))
    ensures data.sys.Some? && data.sys.value.sunset.Some? && data.sys.value.sunset.value != 0 ==>
      GetOwProperty(data, "sunset", fmt) == Ok(Str("\U{1F307} " + fmt.hhmm(data.sys.value.sunset.value)))
    ensures data.visibility.Some? ==>
      GetOwProperty(data, "visibility", fmt) == Ok(Str(IntToString(Kilometres(data.visibility.value)) + " km"))
  {
  }

  lemma OwVisibilityReadsBack(data: Record, fmt: Formatters, m: nat)
    requires data.visibility == Some(Int(m))
    ensures var r := GetOwProperty(data, "visibility", fmt);
      && r.Ok? && r.value.Str? && |r.value.s| > 3
      && r.value.s[|r.value.s| - 3..] == " km"
      && AllDigits(r.value.s[..|r.value.s| - 3])
      && ParseNat(r.value.s[..|r.value.s| - 3]) == m / 1000
      && (r.value.s[0] == '0' ==> r.value.s == "0 km")
  {
    KilometresOfMetres(m);
    var digits := NatToString(m / 1000);
    ParseNatToString(m / 1000);
    var s := digits + " km";
    assert GetOwProperty(data, "visibility", fmt) == Ok(Str(s));
    assert s[..|s| - 3] == digits;
  }

  /** A non-zero whole humidity reads back, before "%", as the humidity itself. */
  lemma OwHumidityReadsBack(data: Record, fmt: Formatters, h: nat)
    requires data.main.Some? && data.main.value.humidity == Some(Int(h)) && h != 0
    ensures var r := GetOwProperty(data, "humidity", fmt);
      && r.Ok? && r.value.Str? && |r.value.s| > 1
      && r.value.s[|r.value.s| - 1] == '%'
      && AllDigits(r.value.s[..|r.value.s| - 1])
      && ParseNat(r.value.s[..|r.value.s| - 1]) == h
  {
    var digits := NatToString(h);
    ParseNatToString(h);
    var s := digits + "%";
    assert GetOwProperty(data, "humidity", fmt) == Ok(Str(s));
    assert s[..|s| - 1] == digits;
  }
}

=== FILE: pystr.dfy ===
/** The Python string built-ins the helpers rely on: `str()` of an integer,
    `str.split` and `str.join` on a separator, and `str.capitalize`. */
module PyStr {

  predicate IsDigit(c: char) {
    '0' <= c <= '9'
  }

  predicate AllDigits(s: string) {
    forall i :: 0 <= i < |s| ==> IsDigit(s[i])
  }

  function DigitChar(d: nat): (c: char)
    requires d < 10
    ensures IsDigit(c)
  {
    ('0' as int + d) as char
  }

  function DigitValue(c: char): (d: nat)
    requires IsDigit(c)
    ensures d < 10
    ensures DigitChar(d) == c
  {
    c as int - '0' as int
  }

  /** `str(n)` for a natural number: its decimal digits, without leading zeros. */
  function NatToString(n: nat): (s: string)
    ensures |s| >= 1
    ensures AllDigits(s)
    ensures s[0] == '0' ==> n == 0
    decreases n
  {
    if n < 10 then [DigitChar(n)] else NatToString(n / 10) + [DigitChar(n % 10)]
  }

  /** `int(s)` for a string of decimal digits (the empty string reads as 0). */
  function ParseNat(s: string): nat
    requires AllDigits(s)
  {
    if |s| == 0 then 0 else ParseNat(s[..|s| - 1]) * 10 + DigitValue(s[|s| - 1])
  }

  /** Reading back what `NatToString` wrote gives the number again. */
  lemma {:induction false} ParseNatToString(n: nat)
    ensures ParseNat(NatToString(n)) == n
    decreases n
  {
    var s := NatToString(n);
    if n >= 10 {
      assert s[..|s| - 1] == NatToString(n / 10);
      ParseNatToString(n / 10);
    }
  }

  /** `NatToString` never maps two numbers to the same text. */
  lemma NatToStringInjective(m: nat, n: nat)
    requires NatToString(m) == NatToString(n)
    ensures m == n
  {
    ParseNatToString(m);
    ParseNatToString(n);
  }

  /** One digit exactly below 10, three or more digits exactly from 100 on. */
  lemma {:induction false} NatToStringLength(n: nat)
    ensures |NatToString(n)| == 1 <==> n < 10
    ensures |NatToString(n)| >= 3 <==> n >= 100
    decreases n
  {
    if n >= 10 {
      NatToStringLength(n / 10);
    }
  }

  /** `str(i)` for any integer: a minus sign before the digits of a negative one. */
  function IntToString(i: int): (s: string)
    ensures |s| >= 1
    ensures i >= 0 <==> AllDigits(s)
    ensures i < 0 ==> s[0] == '-' && |s| >= 2
    ensures i >= 0 ==> ParseNat(s) == i
    ensures i < 0 ==> AllDigits(s[1..]) && ParseNat(s[1..]) == -i
    ensures i >= 0 && s[0] == '0' ==> i == 0
    ensures i == 0 ==> s == "0"
    ensures i < 0 ==> s[1] != '0'
  {
    if i < 0 then
      var s := "-" + NatToString(-i);
      assert !IsDigit(s[0]);
      assert s[1..] == NatToString(-i);
      ParseNatToString(-i);
      s
    else
      ParseNatToString(i);
      NatToString(i)
  }

  /** `sep.join(parts)`: the parts with `sep` between each neighbouring pair. */
  function JoinWith(parts: seq<string>, sep: string): (r: string)
    ensures |parts| == 0 ==> r == ""
    ensures |parts| == 1 ==> r == parts[0]
  {
    if |parts| == 0 then ""
    else if |parts| == 1 then parts[0]
    else parts[0] + sep + JoinWith(parts[1..], sep)
  }

  /** `s.split(c)`: the maximal pieces of `s` between occurrences of `c`,
      empty pieces included, so that there is always at least one. */
  function Split(s: string, c: char): (parts: seq<string>)
    ensures |parts| >= 1
    ensures forall i :: 0 <= i < |parts| ==> c !in parts[i]
    ensures |parts| == 1 + Count(s, c)
    decreases |s|
  {
    if |s| == 0 then [""]
    else
      var rest := Split(s[1..], c);
      if s[0] == c then [""] + rest
      else [[s[0]] + rest[0]] + rest[1..]
  }

  /** Number of occurrences of `c` in `s`. */
  function Count(s: string, c: char): nat
  {
    if |s| == 0 then 0 else (if s[0] == c then 1 else 0) + Count(s[1..], c)
  }

  /** Joining the pieces of a split with the same separator restores the text. */
  lemma {:induction false} JoinSplit(s: string, c: char)
    ensures JoinWith(Split(s, c), [c]) == s
    decreases |s|
  {
    if |s| > 0 {
      var rest := Split(s[1..], c);
      JoinSplit(s[1..], c);
      if s[0] == c {
        assert Split(s, c) == [""] + rest;
        assert Split(s, c)[1..] == rest;
      } else {
        var parts := Split(s, c);
        assert parts == [[s[0]] + rest[0]] + rest[1..];
        if |rest| == 1 {
          assert parts == [[s[0]] + rest[0]];
        } else {
          assert JoinWith(rest, [c]) == rest[0] + [c] + JoinWith(rest[1..], [c]);
          assert parts[1..] == rest[1..];
        }
      }
    }
  }

  /** A piece free of the separator, followed by the separator, splits off as one piece. */
  lemma {:induction false} SplitPrefix(p: string, c: char, rest: string)
    requires c !in p
    ensures Split(p + [c] + rest, c) == [p] + Split(rest, c)
    decreases |p|
  {
    if |p| > 0 {
      assert (p + [c] + rest)[1..] == p[1..] + [c] + rest;
      SplitPrefix(p[1..], c, rest);
      assert [p[0]] + p[1..] == p;
    } else {
      assert p + [c] + rest == [c] + rest;
      assert ([c] + rest)[1..] == rest;
    }
  }

  /** Text free of the separator splits into itself alone. */
  lemma {:induction false} SplitNoSeparator(p: string, c: char)
    requires c !in p
    ensures Split(p, c) == [p]
    decreases |p|
  {
    if |p| > 0 {
      SplitNoSeparator(p[1..], c);
      assert [p[0]] + p[1..] == p;
    }
  }

  /** Splitting a join restores the pieces, when none of them holds the separator. */
  lemma {:induction false} SplitJoin(parts: seq<string>, c: char)
    requires |parts| >= 1
    requires forall i :: 0 <= i < |parts| ==> c !in parts[i]
    ensures Split(JoinWith(parts, [c]), c) == parts
    decreases |parts|
  {
    if |parts| == 1 {
      SplitNoSeparator(parts[0], c);
    } else {
      SplitPrefix(parts[0], c, JoinWith(parts[1..], [c]));
      SplitJoin(parts[1..], c);
      assert [parts[0]] + parts[1..] == parts;
    }
  }

  function ToUpper(c: char): char {
    if 'a' <= c <= 'z' then (c as int - 32) as char else c
  }

  function ToLower(c: char): char {
    if 'A' <= c <= 'Z' then (c as int + 32) as char else c
  }

  function LowerAll(s: string): (r: string)
    ensures |r| == |s|
    ensures forall i :: 0 <= i < |s| ==> r[i] == ToLower(s[i])
  {
    if |s| == 0 then "" else [ToLower(s[0])] + LowerAll(s[1..])
  }

  /** `s.capitalize()`: the first character upper-cased, every other one lower-cased. */
  function Capitalize(s: string): (r: string)
    ensures |r| == |s|
    ensures |s| > 0 ==> !('a' <= r[0] <= 'z') && ToLower(r[0]) == ToLower(s[0])
    ensures forall i :: 1 <= i < |s| ==> !('A' <= r[i] <= 'Z') && r[i] == ToLower(s[i])
  {
    if |s| == 0 then "" else [ToUpper(s[0])] + LowerAll(s[1..])
  }

  /** Capitalising twice is capitalising once. */
  lemma CapitalizeIdempotent(s: string)
    ensures Capitalize(Capitalize(s)) == Capitalize(s)
  {
    var r := Capitalize(s);
    var rr := Capitalize(r);
    assert |rr| == |r|;
    forall i | 0 <= i < |r|
      ensures rr[i] == r[i]
    {
    }
  }
}

=== FILE: tools.dfy ===
/** The pure helpers of tools.py: temporary-directory and application-directory
    selection from the environment, defaults filling, and duration formatting.
    The environment is passed in as a map from variable name to value. */
module Tools {
  import opened Wrappers
  import opened PyStr

  type Env = map<string, string>

  /** `if os.getenv(k):` holds when the variable is set and non-empty. */
  predicate IsSet(env: Env, k: string) {
    k in env && env[k] != ""
  }

  /** Position of the first variable of `names` that is set and non-empty,
      or `|names|` when there is none: an ordered fallback chain. */
  function FirstSetIndex(env: Env, names: seq<string>): (i: nat)
    ensures i <= |names|
    ensures forall j :: 0 <= j < i ==> !IsSet(env, names[j])
    ensures i < |names| ==> IsSet(env, names[i])
  {
    if |names| == 0 then 0
    else if IsSet(env, names[0]) then 0
    else 1 + FirstSetIndex(env, names[1..])
  }

  const TempVars: seq<string> := ["TMPDIR", "TEMP", "TMP"]

  /** The temporary directory: the first of TMPDIR, TEMP and TMP that is set
      and non-empty, otherwise "/tmp". */
  function TempDir(env: Env): (r: string)
    ensures r != ""
    ensures var i := FirstSetIndex(env, TempVars);
      if i < |TempVars| then r == env[TempVars[i]] else r == "/tmp"
  {
    assert TempVars[1..] == ["TEMP", "TMP"] && ["TEMP", "TMP"][1..] == ["TMP"] && ["TMP"][1..] == [];
    assert !IsSet(env, "TMPDIR") && !IsSet(env, "TEMP") ==>
      FirstSetIndex(env, TempVars) == 2 + FirstSetIndex(env, ["TMP"]);
    if IsSet(env, "TMPDIR") then env["TMPDIR"]
    else if IsSet(env, "TEMP") then env["TEMP"]
    else if IsSet(env, "TMP") then env["TMP"]
    else "/tmp"
  }

  predicate IsAbsolute(p: string) {
    |p| > 0 && p[0] == '/'
  }

  /** `os.path.join(a, b)` on POSIX: an absolute `b` replaces `a`; otherwise
      `b` follows `a` with exactly one '/' between them unless `a` is empty. */
  function PathJoin(a: string, b: string): (r: string)
    ensures IsAbsolute(b) ==> r == b
    ensures !IsAbsolute(b) ==> |r| >= |a| + |b| && r[..|a|] == a && r[|r| - |b|..] == b
    ensures !IsAbsolute(b) ==> |r| <= |a| + |b| + 1
    ensures !IsAbsolute(b) && a != "" ==> r[|r| - |b| - 1] == '/'
    ensures !IsAbsolute(b) && a != "" && a[|a| - 1] == '/' ==> r == a + b
    ensures a == "" ==> r == b
  {
    if IsAbsolute(b) then b
    else if a == "" || a[|a| - 1] == '/' then a + b
    else a + "/" + b
  }

  const AppsDir := "applications"
  const HomeAppsDir := ".local/share/applications"
  const HomeFlatpakDir := ".local/share/flatpak/exports/share/applications"
  const SystemFlatpakDir := "/var/lib/flatpak/exports/share/applications"
  const DefaultDataDirs := "/usr/local/share/:/usr/share/"

  /** XDG_DATA_DIRS, or the default pair of directories when it is unset or empty. */
  function DataDirs(env: Env): (r: string)
    ensures IsSet(env, "XDG_DATA_DIRS") ==> r == env["XDG_DATA_DIRS"]
    ensures !IsSet(env, "XDG_DATA_DIRS") ==> r == DefaultDataDirs
  {
    if IsSet(env, "XDG_DATA_DIRS") then env["XDG_DATA_DIRS"] else DefaultDataDirs
  }

  /** The default XDG_DATA_DIRS names /usr/local/share/ and /usr/share/, in that order. */
  lemma DefaultDataDirsSplit()
    ensures Split(DefaultDataDirs, ':') == ["/usr/local/share/", "/usr/share/"]
  {
    var parts := ["/usr/local/share/", "/usr/share/"];
    assert JoinWith(parts, [':']) == parts[0] + [':'] + parts[1];
    assert JoinWith(parts, [':']) == DefaultDataDirs;
    SplitJoin(parts, ':');
  }

  /** The per-user entry: under XDG_DATA_HOME when set, else under HOME when set, else none. */
  function HomeEntries(env: Env): (r: seq<string>)
    ensures |r| <= 1
  {
    if IsSet(env, "XDG_DATA_HOME") then [PathJoin(env["XDG_DATA_HOME"], AppsDir)]
    else if IsSet(env, "HOME") then [PathJoin(env["HOME"], HomeAppsDir)]
    else []
  }

  /** The "applications" directory under each of `dirs`, in order. */
  function AppsUnder(dirs: seq<string>): (r: seq<string>)
    ensures |r| == |dirs|
    ensures forall i {:trigger r[i]} :: 0 <= i < |dirs| ==> r[i] == PathJoin(dirs[i], AppsDir)
  {
    if |dirs| == 0 then [] else [PathJoin(dirs[0], AppsDir)] + AppsUnder(dirs[1..])
  }

  /** The directories listed before the flatpak ones are considered. */
  function Listed(env: Env): seq<string> {
    HomeEntries(env) + AppsUnder(Split(DataDirs(env), ':'))
  }

  /** After the per-user entry, the listed directories are those derived from XDG_DATA_DIRS. */
  lemma ListedTail(env: Env)
    ensures |Listed(env)| == |HomeEntries(env)| + |Split(DataDirs(env), ':')|
    ensures Listed(env)[|HomeEntries(env)|..] == AppsUnder(Split(DataDirs(env), ':'))
  {
    var h := HomeEntries(env);
    var a := AppsUnder(Split(DataDirs(env), ':'));
    assert (h + a)[|h|..] == a;
  }

  /** `if d not in xs: xs.append(d)`. */
  function AppendUnique(xs: seq<string>, d: string): (r: seq<string>)
    ensures d in r
    ensures forall x :: x in r <==> x in xs || x == d
    ensures d in xs ==> r == xs
    ensures d !in xs ==> r == xs + [d]
  {
    if d in xs then xs else xs + [d]
  }

  /** No entry of `xs` at or after position `from` repeats an earlier entry. */
  predicate FreshFrom(xs: seq<string>, from: nat) {
    forall j :: from <= j < |xs| ==> xs[j] !in xs[..j]
  }

  /** Appends each of `ds` in turn, skipping those already present. */
  function AppendAllUnique(xs: seq<string>, ds: seq<string>): (r: seq<string>)
    ensures |xs| <= |r| <= |xs| + |ds|
    ensures r[..|xs|] == xs
    ensures forall d :: d in ds ==> d in r
    ensures forall x :: x in r ==> x in xs || x in ds
    ensures FreshFrom(r, |xs|)
    decreases |ds|
  {
    if |ds| == 0 then xs
    else
      var ys := AppendUnique(xs, ds[0]);
      var r := AppendAllUnique(ys, ds[1..]);
      assert r[..|ys|] == ys;
      assert r[..|xs|] == ys[..|xs|] == xs;
      assert forall d :: d in ds ==> d == ds[0] || d in ds[1..];
      assert FreshFrom(r, |xs|) by {
        forall j | |xs| <= j < |r|
          ensures r[j] !in r[..j]
        {
          if j < |ys| {
            assert j == |xs| && r[j] == ds[0] && r[..j] == xs;
          }
        }
      }
      r
  }

  /** get_app_dirs as written: os.path.join(None, …) raises a TypeError when
      HOME is unset, whatever the other variables say. */
  function GetAppDirs(env: Env): (r: Result<seq<string>, PyError>)
    ensures r.Err? <==> "HOME" !in env
    ensures r.Err? ==> r.error == TypeError
  {
    if "HOME" !in env then Err(TypeError)
    else Ok(AppendAllUnique(Listed(env), [PathJoin(env["HOME"], HomeFlatpakDir), SystemFlatpakDir]))
  }

  /** The flatpak directories, leaving out the per-user one when HOME is unset. */
  function FlatpakDirs(env: Env): (r: seq<string>)
    ensures SystemFlatpakDir in r
    ensures "HOME" in env ==> r == [PathJoin(env["HOME"], HomeFlatpakDir), SystemFlatpakDir]
    ensures "HOME" !in env ==> r == [SystemFlatpakDir]
  {
    (if "HOME" in env then [PathJoin(env["HOME"], HomeFlatpakDir)] else []) + [SystemFlatpakDir]
  }

  /** get_app_dirs as evidently intended: it never raises, and skips the
      per-user flatpak directory when there is no HOME. */
  function AppDirs(env: Env): (r: seq<string>)
    ensures "HOME" in env ==> GetAppDirs(env) == Ok(r)
    ensures SystemFlatpakDir in r
  {
    AppendAllUnique(Listed(env), FlatpakDirs(env))
  }

  /** Without HOME the code as written fails where the intended one lists directories. */
  lemma AppDirsWithoutHome()
    ensures GetAppDirs(map["XDG_DATA_HOME" := "/data"]) == Err(TypeError)
    ensures SystemFlatpakDir in AppDirs(map["XDG_DATA_HOME" := "/data"])
  {
  }

  /** The first entry: XDG_DATA_HOME/applications, else HOME/.local/share/applications,
      else the first entry derived from XDG_DATA_DIRS. */
  lemma AppDirsFirst(env: Env)
    ensures IsSet(env, "XDG_DATA_HOME") ==>
      AppDirs(env)[0] == PathJoin(env["XDG_DATA_HOME"], "applications")
    ensures !IsSet(env, "XDG_DATA_HOME") && IsSet(env, "HOME") ==>
      AppDirs(env)[0] == PathJoin(env["HOME"], ".local/share/applications")
    ensures !IsSet(env, "XDG_DATA_HOME") && !IsSet(env, "HOME") ==>
      AppDirs(env)[0] == PathJoin(Split(DataDirs(env), ':')[0], "applications")
  {
    assert |Listed(env)| >= 1 by {
      ListedTail(env);
    }
    assert AppDirs(env)[0] == Listed(env)[0] by {
      AppDirsPrefix(env);
      PrefixHead(AppDirs(env), Listed(env));
    }
    ListedFirst(env);
  }

  /** The first listed directory: the per-user entry when there is one, else the
      entry for the first piece of XDG_DATA_DIRS. */
  lemma ListedFirst(env: Env)
    ensures |Listed(env)| >= 1
    ensures IsSet(env, "XDG_DATA_HOME") ==>
      Listed(env)[0] == PathJoin(env["XDG_DATA_HOME"], AppsDir)
    ensures !IsSet(env, "XDG_DATA_HOME") && IsSet(env, "HOME") ==>
      Listed(env)[0] == PathJoin(env["HOME"], HomeAppsDir)
    ensures !IsSet(env, "XDG_DATA_HOME") && !IsSet(env, "HOME") ==>
      Listed(env)[0] == PathJoin(Split(DataDirs(env), ':')[0], AppsDir)
  {
    var h := HomeEntries(env);
    var a := AppsUnder(Split(DataDirs(env), ':'));
    if |h| == 0 {
      assert h + a == a;
    } else {
      assert (h + a)[0] == h[0];
    }
  }

  lemma PrefixHead<T>(r: seq<T>, l: seq<T>)
    requires 1 <= |l| <= |r| && r[..|l|] == l
    ensures r[0] == l[0]
  {
    assert r[0] == r[..|l|][0];
  }

  /** Each ':'-separated piece of XDG_DATA_DIRS (or of the default) gives exactly one
      "applications" entry, in order, right after the per-user entry. */
  lemma AppDirsDataEntries(env: Env)
    ensures var parts := Split(DataDirs(env), ':');
      var k := |HomeEntries(env)|;
      var r := AppDirs(env);
      && |r| >= k + |parts|
      && forall i :: 0 <= i < |parts| ==> r[k + i] == PathJoin(parts[i], "applications")
  {
    AppDirsPrefix(env);
    DataEntriesAfter(HomeEntries(env), Split(DataDirs(env), ':'), AppDirs(env));
  }

  /** The flatpak step keeps what was listed before it as a prefix. */
  lemma AppDirsPrefix(env: Env)
    ensures |Listed(env)| <= |AppDirs(env)| && AppDirs(env)[..|Listed(env)|] == Listed(env)
  {
    var l := Listed(env);
    var r := AppendAllUnique(l, FlatpakDirs(env));
    assert r[..|l|] == l;
  }

  /** A list that starts with `h` followed by the entries for `parts` holds each
      of those entries right after `h`. */
  lemma DataEntriesAfter(h: seq<string>, parts: seq<string>, r: seq<string>)
    requires |h + AppsUnder(parts)| <= |r| && r[..|h + AppsUnder(parts)|] == h + AppsUnder(parts)
    ensures |r| >= |h| + |parts|
    ensures forall i :: 0 <= i < |parts| ==> r[|h| + i] == PathJoin(parts[i], AppsDir)
  {
    var a := AppsUnder(parts);
    var l := h + a;
    ConcatTail(h, a);
    PrefixEntries(r, l, |h|, a);
    forall i | 0 <= i < |parts|
      ensures r[|h| + i] == PathJoin(parts[i], AppsDir)
    {
      var e := r[|h| + i];
      assert e == a[i];
      assert a[i] == PathJoin(parts[i], AppsDir);
    }
  }

  lemma ConcatTail<T>(h: seq<T>, a: seq<T>)
    ensures (h + a)[|h|..] == a
  {
  }

  /** Entries of `a` sitting from position `k` of a prefix `l` of `r` sit there in `r` too. */
  lemma PrefixEntries<T>(r: seq<T>, l: seq<T>, k: nat, a: seq<T>)
    requires |l| <= |r| && r[..|l|] == l
    requires k <= |l| && l[k..] == a
    ensures |r| >= k + |a|
    ensures forall i :: 0 <= i < |a| ==> r[k + i] == a[i]
  {
    forall i | 0 <= i < |a|
      ensures r[k + i] == a[i]
    {
      assert r[k + i] == r[..|l|][k + i] == l[k + i];
      assert l[k + i] == l[k..][i];
    }
  }

  /** Whatever `AppendAllUnique` adds comes from `ds`. */
  lemma AppendedFrom(xs: seq<string>, ds: seq<string>)
    ensures var r := AppendAllUnique(xs, ds);
      forall j :: |xs| <= j < |r| ==> r[j] in ds
  {
    var r := AppendAllUnique(xs, ds);
    forall j | |xs| <= j < |r|
      ensures r[j] in ds
    {
      assert r[j] !in r[..j];
      assert r[..j][..|xs|] == xs;
      assert r[j] !in xs;
    }
  }

  /** The position of the first occurrence of `d` in `ds`. */
  function IndexOf(ds: seq<string>, d: string): (k: nat)
    requires d in ds
    ensures k < |ds| && ds[k] == d
    ensures forall i :: 0 <= i < k ==> ds[i] != d
  {
    if ds[0] == d then 0 else 1 + IndexOf(ds[1..], d)
  }

  /** The appended entries come in the order of `ds`: for any two of them, the
      earlier one occurs first in `ds`. So the loop appends in iteration order. */
  lemma {:induction false} AppendAllUniqueOrder(xs: seq<string>, ds: seq<string>)
    ensures var r := AppendAllUnique(xs, ds);
      && (forall j :: |xs| <= j < |r| ==> r[j] in ds)
      && (forall i, j :: |xs| <= i < j < |r| ==> IndexOf(ds, r[i]) < IndexOf(ds, r[j]))
    decreases |ds|
  {
    if |ds| > 0 {
      var ys := AppendUnique(xs, ds[0]);
      var r := AppendAllUnique(xs, ds);
      assert r == AppendAllUnique(ys, ds[1..]);
      AppendAllUniqueOrder(ys, ds[1..]);
      OrderStep(xs, ds, ys, r);
    }
  }

  /** One iteration of the order argument: appending `ds[0]` first and then the
      rest in the order of `ds[1..]` appends in the order of `ds`. */
  lemma OrderStep(xs: seq<string>, ds: seq<string>, ys: seq<string>, r: seq<string>)
    requires |ds| > 0 && ys == AppendUnique(xs, ds[0])
    requires |ys| <= |r| && r[..|ys|] == ys
    requires forall j :: |xs| <= j < |r| ==> r[j] !in r[..j]
    requires forall j :: |ys| <= j < |r| ==> r[j] in ds[1..]
    requires forall i, j :: |ys| <= i < j < |r| ==> IndexOf(ds[1..], r[i]) < IndexOf(ds[1..], r[j])
    ensures forall j :: |xs| <= j < |r| ==> r[j] in ds
    ensures forall i, j :: |xs| <= i < j < |r| ==> IndexOf(ds, r[i]) < IndexOf(ds, r[j])
  {
    forall j | |ys| <= j < |r|
      ensures r[j] in ds && IndexOf(ds, r[j]) == 1 + IndexOf(ds[1..], r[j])
    {
      LaterEntry(xs, ds, ys, r, j);
    }
    HeadEntries(xs, ds, ys, r);
    PairOrder(|xs|, |ys|, ds, r);
  }

  /** The entry appended for `ds[0]`, if any, sits at position 0 of `ds`. */
  lemma HeadEntries(xs: seq<string>, ds: seq<string>, ys: seq<string>, r: seq<string>)
    requires |ds| > 0 && ys == AppendUnique(xs, ds[0])
    requires |ys| <= |r| && r[..|ys|] == ys
    ensures |xs| <= |ys| <= |xs| + 1
    ensures forall j :: |xs| <= j < |ys| ==> r[j] in ds && IndexOf(ds, r[j]) == 0
  {
    forall j | |xs| <= j < |ys|
      ensures r[j] == ds[0]
    {
      assert r[j] == r[..|ys|][j];
    }
  }

  /** Entries at position 0 of `ds` followed by entries ordered within `ds[1..]`
      are ordered within `ds`. */
  lemma PairOrder(a: nat, b: nat, ds: seq<string>, r: seq<string>)
    requires a <= b <= |r| && b <= a + 1 && |ds| > 0
    requires forall j :: b <= j < |r| ==> r[j] in ds[1..]
    requires forall j :: b <= j < |r| ==> r[j] in ds && IndexOf(ds, r[j]) == 1 + IndexOf(ds[1..], r[j])
    requires forall j :: a <= j < b ==> r[j] in ds && IndexOf(ds, r[j]) == 0
    requires forall i, j :: b <= i < j < |r| ==> IndexOf(ds[1..], r[i]) < IndexOf(ds[1..], r[j])
    ensures forall j :: a <= j < |r| ==> r[j] in ds
    ensures forall i, j :: a <= i < j < |r| ==> IndexOf(ds, r[i]) < IndexOf(ds, r[j])
  {
    forall i, j | a <= i < j < |r|
      ensures IndexOf(ds, r[i]) < IndexOf(ds, r[j])
    {
      if i < b {
        assert b <= j;
      } else {
        assert IndexOf(ds[1..], r[i]) < IndexOf(ds[1..], r[j]);
      }
    }
  }

  /** An entry appended after `ds[0]` was considered is not `ds[0]`. */
  lemma LaterEntry(xs: seq<string>, ds: seq<string>, ys: seq<string>, r: seq<string>, j: nat)
    requires |ds| > 0 && ys == AppendUnique(xs, ds[0])
    requires |ys| <= j < |r| && r[..|ys|] == ys
    requires |xs| <= j ==> r[j] !in r[..j]
    requires r[j] in ds[1..]
    ensures r[j] in ds && IndexOf(ds, r[j]) == 1 + IndexOf(ds[1..], r[j])
  {
    var p :| 0 <= p < |ys| && ys[p] == ds[0];
    assert r[..j][p] == ys[p];
    IndexOfTail(ds, r[j]);
  }

  /** Past the first entry, positions in `ds` are one more than in `ds[1..]`. */
  lemma IndexOfTail(ds: seq<string>, d: string)
    requires |ds| > 0 && d in ds[1..] && d != ds[0]
    ensures d in ds && IndexOf(ds, d) == 1 + IndexOf(ds[1..], d)
  {
    assert ds == [ds[0]] + ds[1..];
  }

  /** The flatpak step only appends: every flatpak directory is present afterwards,
      at most one entry per flatpak directory is added, and no added entry
      duplicates one already listed. */
  lemma AppDirsFlatpak(env: Env)
    ensures var l := Listed(env);
      var f := FlatpakDirs(env);
      var r := AppDirs(env);
      && r[..|l|] == l
      && |r| <= |l| + |f|
      && (forall d :: d in f ==> d in r)
      && (forall j :: |l| <= j < |r| ==> r[j] in f && r[j] !in r[..j])
    ensures var l := Listed(env);
      var f := FlatpakDirs(env);
      && (|f| == 2 ==> AppDirs(env) == AppendUnique(AppendUnique(l, f[0]), f[1]))
      && (|f| == 1 ==> AppDirs(env) == AppendUnique(l, f[0]))
    ensures "HOME" in env ==>
      AppDirs(env) == AppendUnique(AppendUnique(Listed(env), PathJoin(env["HOME"], HomeFlatpakDir)), SystemFlatpakDir)
    ensures "HOME" !in env ==> AppDirs(env) == AppendUnique(Listed(env), SystemFlatpakDir)
  {
    AppendShape(Listed(env), FlatpakDirs(env));
  }

  /** What appending the flatpak directories does to any list `l`. */
  lemma AppendShape(l: seq<string>, f: seq<string>)
    ensures var r := AppendAllUnique(l, f);
      && r[..|l|] == l
      && |r| <= |l| + |f|
      && (forall d :: d in f ==> d in r)
      && (forall j :: |l| <= j < |r| ==> r[j] in f && r[j] !in r[..j])
      && (|f| == 2 ==> r == AppendUnique(AppendUnique(l, f[0]), f[1]))
      && (|f| == 1 ==> r == AppendUnique(l, f[0]))
  {
    var r := AppendAllUnique(l, f);
    assert forall j :: |l| <= j < |r| ==> r[j] in f && r[j] !in r[..j] by {
      AppendedFrom(l, f);
    }
    if |f| == 2 {
      AppendTwo(l, f);
    } else if |f| == 1 {
      AppendOne(l, f);
    }
  }

  /** Appending a single directory is one `AppendUnique` step. */
  lemma AppendOne(xs: seq<string>, ds: seq<string>)
    requires |ds| == 1
    ensures AppendAllUnique(xs, ds) == AppendUnique(xs, ds[0])
  {
    assert ds[1..] == [];
  }

  /** Appending two directories is two `AppendUnique` steps, first then second. */
  lemma AppendTwo(xs: seq<string>, ds: seq<string>)
    requires |ds| == 2
    ensures AppendAllUnique(xs, ds) == AppendUnique(AppendUnique(xs, ds[0]), ds[1])
  {
    AppendOne(AppendUnique(xs, ds[0]), ds[1..]);
  }

  /** `check_key`: adds `key` with `value` only when it is missing. */
  function CheckKey<V>(d: map<string, V>, key: string, value: V): (r: map<string, V>)
    ensures r.Keys == d.Keys + {key}
    ensures forall k :: k in d ==> r[k] == d[k]
    ensures key !in d ==> r[key] == value
  {
    if key !in d then d[key := value] else d
  }

  /** A second `check_key` on the same key changes nothing, whatever value it offers. */
  lemma CheckKeyIdempotent<V>(d: map<string, V>, key: string, v: V, w: V)
    ensures CheckKey(CheckKey(d, key, v), key, w) == CheckKey(d, key, v)
  {
  }

  /** Zero-pads a one-character field to two characters. */
  function PadTwo(s: string): (r: string)
    ensures |r| == if |s| < 2 then |s| + 1 else |s|
    ensures |s| < 2 ==> r == "0" + s
    ensures |s| >= 2 ==> r == s
  {
    if |s| < 2 then "0" + s else s
  }

  /** A leading zero does not change the number a digit string denotes. */
  lemma {:induction false} ParseNatLeadingZero(s: string)
    requires AllDigits(s)
    ensures AllDigits("0" + s) && ParseNat("0" + s) == ParseNat(s)
    decreases |s|
  {
    var t := "0" + s;
    assert AllDigits(t) by { assert forall i :: 1 <= i < |t| ==> t[i] == s[i - 1]; }
    if |s| > 0 {
      assert t[..|t| - 1] == "0" + s[..|s| - 1];
      ParseNatLeadingZero(s[..|s| - 1]);
    }
  }

  /** The zero-padded decimal field of a natural number reads back as that number. */
  lemma PaddedReadsBack(n: nat)
    ensures AllDigits(PadTwo(NatToString(n)))
    ensures ParseNat(PadTwo(NatToString(n))) == n
  {
    var s := NatToString(n);
    ParseNatToString(n);
    if |s| < 2 {
      ParseNatLeadingZero(s);
    }
  }

  /** `seconds2string`: hours and minutes as "HH:MM", both zero-padded to two
      characters. Python's divmod floors, which agrees with Dafny's `/` and `%`
      for the positive divisor 60. */
  function Seconds2String(seconds: int): (r: string)
    ensures |r| >= 5 && r[|r| - 3] == ':'
  {
    ClockOfMinutes(seconds / 60)
  }

  /** The "HH:MM" text for a count of whole minutes. */
  function ClockOfMinutes(minutes: int): (r: string)
    ensures |r| >= 5 && r[|r| - 3] == ':'
  {
    var hrs := minutes / 60;
    var mins := minutes % 60;
    NatToStringLength(mins);
    Glue(PadTwo(IntToString(hrs)), PadTwo(IntToString(mins)))
  }

  /** The two fields of `seconds2string`: the minutes field is exactly two digits
      denoting the whole minutes past the hour; for a non-negative duration the
      hours field is at least two digits, denotes the whole hours, and is never
      cut short (three or more digits from 100 hours on) nor padded beyond two
      (no leading zero from 10 hours on). The seconds are dropped. */
  lemma Seconds2StringFields(seconds: int)
    ensures var r := Seconds2String(seconds);
      && AllDigits(r[|r| - 2..]) && ParseNat(r[|r| - 2..]) == (seconds / 60) % 60
    ensures seconds >= 0 ==> var r := Seconds2String(seconds);
      && AllDigits(r[..|r| - 3]) && ParseNat(r[..|r| - 3]) == seconds / 3600
      && |r| - 3 >= 2
      && (|r| - 3 >= 3 <==> seconds / 3600 >= 100)
    ensures seconds >= 0 ==> var r := Seconds2String(seconds);
      && |r| - 3 == (if seconds / 3600 < 10 then 2 else |NatToString(seconds / 3600)|)
      && (seconds >= 36000 ==> r[0] != '0')
  {
    ClockShape(seconds);
    TenHours(seconds);
    GlueFields(Seconds2String(seconds), seconds / 3600, (seconds / 60) % 60);
  }

  /** `seconds2string` glues the padded whole hours to the padded minutes past the hour. */
  lemma ClockShape(seconds: int)
    ensures Seconds2String(seconds)
      == Glue(PadTwo(IntToString(seconds / 3600)), PadTwo(IntToString((seconds / 60) % 60)))
  {
    HoursOfSeconds(seconds);
  }

  lemma TenHours(s: int)
    ensures s >= 0 ==> s / 3600 >= 0
    ensures s >= 36000 ==> s / 3600 >= 10
  {
  }

  /** The fields of an "HH:MM" text glued from a padded hours count and a padded
      minutes count below 60. */
  lemma GlueFields(r: string, hours: int, mins: int)
    requires 0 <= mins < 60
    requires r == Glue(PadTwo(IntToString(hours)), PadTwo(IntToString(mins)))
    ensures |r| >= 5
    ensures AllDigits(r[|r| - 2..]) && ParseNat(r[|r| - 2..]) == mins
    ensures hours >= 0 ==>
      && AllDigits(r[..|r| - 3]) && ParseNat(r[..|r| - 3]) == hours
      && |r| - 3 >= 2
      && (|r| - 3 >= 3 <==> hours >= 100)
      && |r| - 3 == (if hours < 10 then 2 else |NatToString(hours)|)
      && (hours >= 10 ==> r[0] != '0')
  {
    assert |r| >= 5 && r[..|r| - 3] == PadTwo(IntToString(hours)) && r[|r| - 2..] == PadTwo(IntToString(mins)) by {
      TwoDigitField(mins);
      GlueSlices(r, PadTwo(IntToString(hours)), PadTwo(IntToString(mins)));
    }
    TailField(r, mins);
    if hours >= 0 {
      HeadField(r, hours);
    }
  }

  /** A padded number below 60 takes exactly two characters. */
  lemma TwoDigitField(n: nat)
    requires n < 60
    ensures |PadTwo(IntToString(n))| == 2
  {
    NatToStringLength(n);
  }

  /** Where the two fields sit in a glued "HH:MM" text. */
  lemma GlueSlices(r: string, h: string, m: string)
    requires |h| >= 2 && |m| == 2 && r == Glue(h, m)
    ensures |r| >= 5 && r[..|r| - 3] == h && r[|r| - 2..] == m
  {
  }

  /** Text whose last two characters are the padded field of a number below 60. */
  lemma TailField(r: string, n: nat)
    requires n < 60
    requires |r| >= 2 && r[|r| - 2..] == PadTwo(IntToString(n))
    ensures AllDigits(r[|r| - 2..]) && ParseNat(r[|r| - 2..]) == n
  {
    PaddedField(n);
  }

  /** Text whose part before the last three characters is a padded field. */
  lemma HeadField(r: string, n: nat)
    requires |r| >= 3 && r[..|r| - 3] == PadTwo(IntToString(n))
    ensures AllDigits(r[..|r| - 3]) && ParseNat(r[..|r| - 3]) == n
    ensures |r| - 3 >= 2
    ensures |r| - 3 == (if n < 10 then 2 else |NatToString(n)|)
    ensures |r| - 3 >= 3 <==> n >= 100
    ensures n >= 10 ==> r[0] != '0'
  {
    PaddedField(n);
    assert r[0] == r[..|r| - 3][0];
  }

  /** The padded field of a natural number: digits reading back as the number, two
      wide below 10 and as wide as the number's own digits from 10 on. */
  lemma PaddedField(n: nat)
    ensures var f := PadTwo(IntToString(n));
      && AllDigits(f) && ParseNat(f) == n
      && |f| == (if n < 10 then 2 else |NatToString(n)|)
      && (|f| >= 3 <==> n >= 100)
      && (n >= 10 ==> f[0] != '0')
  {
    assert IntToString(n) == NatToString(n);
    PaddedReadsBack(n);
    NatToStringLength(n);
  }

  /** The leftover seconds do not show: only whole minutes matter. */
  lemma Seconds2StringDropsSeconds(seconds: int)
    ensures Seconds2String(seconds) == Seconds2String(seconds - seconds % 60)
  {
    WholeMinutes(seconds);
    var t := seconds - seconds % 60;
    assert Seconds2String(t) == ClockOfMinutes(t / 60);
  }

  lemma WholeMinutes(seconds: int)
    ensures (seconds - seconds % 60) / 60 == seconds / 60
  {
    DivUnique60(seconds - seconds % 60, seconds / 60, 0);
  }

  lemma DivUnique60(a: int, q: int, r: int)
    requires 0 <= r < 60 && a == 60 * q + r
    ensures a / 60 == q
  {
  }

  /** Joins the two fields and exposes them again as the two sides of the colon. */
  function Glue(h: string, m: string): (r: string)
    ensures r == h + ":" + m
    ensures r[..|h|] == h && r[|h| + 1..] == m && r[|h|] == ':'
  {
    h + ":" + m
  }

  /** Flooring by 60 twice floors by 3600. */
  lemma HoursOfSeconds(s: int)
    ensures (s / 60) / 60 == s / 3600
  {
    var q := s / 60;
    var h := q / 60;
    assert s == 60 * q + s % 60;
    assert q == 60 * h + q % 60;
    assert s == 3600 * h + (60 * (q % 60) + s % 60);
    DivUnique3600(s, h, 60 * (q % 60) + s % 60);
  }

  lemma DivUnique3600(a: int, q: int, r: int)
    requires 0 <= r < 3600 && a == 3600 * q + r
    ensures a / 3600 == q
  {
  }
}

=== FILE: wrappers.dfy ===
/** Failure-carrying datatypes shared by the model, and the Python exceptions
    the modelled helpers can raise. */
module Wrappers {

  datatype Option<+T> = None | Some(value: T)

  datatype Result<+T, +E> = Ok(value: T) | Err(error: E)

  /** The exceptions the helpers can raise on a malformed input. */
  datatype PyError =
    | KeyError(key: string)   // subscript of a dict with a missing key
    | IndexError              // subscript of a list past its end
    | TypeError               // a `None` where a string is required
}
